=== FILE: README.md ===
# Dungeon generator and inventory: a Dafny model

This project models the logic at the heart of a small Unity dungeon crawler:

- the randomized depth-first maze builder (`DungeonGenerator`);
- the rooms it instantiates (`RoomBehavior`);
- the two room decorators: by typed anchor lists (`RoomBehavior.PopulateRoomAnchored`) and by anchor names (`DungeonPopulator`);
- the item bag (`InventoryManager`, `InventorySlot`) and its keyboard handler (`InventoryInputHandler`).

The Unity objects themselves are not modelled. Game objects become booleans ("active"), transforms become opaque handles, and items and prefabs are opaque type parameters.

## The model

The board is a `seq<Cell>` of `width * height` cells, indexed `x + y * width`. Each cell has a visited flag and four door bits: 0 up, 1 down, 2 right, 3 left.

The walk is given twice:

- `Maze.Iterate` is one loop iteration and `Maze.Walked` is the whole loop, both as pure functions.
- `Maze.MazeGenerator` is the loop as written, and is proved to compute `Walked`.

Every call to `Random.Range(0, n)` is replaced by an injected oracle `pick(k, n)` (module `Choice`). The only assumption about it is that it answers an index below `n`. So a run is fully determined by the board size, the start index and the oracle.

The invariant the walk keeps is `Maze.Inv`:

- every stacked index is a visited cell;
- a cell the walk has not reached has no open side;
- every open side is mirrored by the opposite side of an adjacent cell;
- the number of open sides is twice (reached cells − 1).

Alongside it the walk keeps `Maze.Spans`: every reached cell can be reached from the current cell through open doors. So at the end any two reached cells are joined by open doors (`Maze.RunConnected`, exported by `Maze.MazeGenerator`). A connected door graph on the reached cells with one door fewer than cells is a spanning tree of them.

`Dungeon.BuildDungeon` chains the whole pipeline: walk, emit one room per visited cell, show each room's doors. On boards at least two columns wide it proves that touching rooms agree on the doors that face each other, and, unless the walk ran out of steps, that every open door leads into a room. On a one-column board neither is promised: there a downward move is recorded on the right/left bits, so an open door can face off the grid (see **Width-1 boards** below).

Behaviour of the code worth knowing:

- **Emission order.** `GenerateDungeon` loops over columns outside and rows inside. Rooms are therefore emitted column by column (`Layout.Before`), not row by row, even though the cell index `x + y * width` is row-major.
- **Start cell.** The start cell is not marked before the loop. The first iteration marks it, like every other current cell.
- **Width-1 boards.** The door bits of a move are chosen from the index difference alone (`newCell - 1 == currentCell` means right). On a board one column wide, a move down is therefore recorded on the right/left bits (`MazeScenarios.OneColumnDownMove`). Every "bit matches geometry" property is stated for width ≥ 2 only.
- **Step ceiling.** If the 1000-iteration ceiling ends the walk right after a forward move, the cell just entered has an open side but is not marked visited. Its room is never emitted. The edge count is therefore stated over the reached cells (visited cells plus the current cell). "Every open door leads into a room" is stated only for walks that did not run out of steps.
- **Undeclared placement types.** For a placement value outside the declared enum names, the two decorators disagree. The typed lookup offers no anchor. The name filter uses the empty keyword, which matches every child (`Room.UndeclaredDiverges`).

## Model

| member | source | states |
|---|---|---|
| Grid.NewBoard | Assets/Scripts/DungeonGenerator.cs:52-60 | the new board has exactly width·height cells, each unvisited and with all four door bits false |
| Grid.IndexCoords | Assets/Scripts/DungeonGenerator.cs:38 | for an in-range column and row, the index `x + y*width` lies on the board and its row and column are `y` and `x` |
| Grid.AdjacentByIndex | Assets/Scripts/DungeonGenerator.cs:139-161 | the four index candidates the neighbour scan tries (c−w, c+w, c+1 unless c+1 starts a row, c−1 unless c starts a row) are exactly the axis-aligned grid neighbours; left and right never cross a row |
| Grid.CheckNeighbors | Assets/Scripts/DungeonGenerator.cs:135-164 | on a board of width·height cells, every index returned is on the board and names an unvisited cell |
| Grid.CheckNeighborsExact | Assets/Scripts/DungeonGenerator.cs:135-164 | an index is returned iff it is on the board, a grid neighbour of the cell and unvisited; the result is ordered up, down, right, left |
| Grid.MoveBitsLink | Assets/Scripts/DungeonGenerator.cs:97-128 | a move between neighbours opens one side on each cell, and the two sides are opposite; each side's index partner is the other cell |
| Grid.MoveBitsGeometry | Assets/Scripts/DungeonGenerator.cs:97-128 | on boards at least two columns wide, the sides a move opens are the geometric directions between the two cells |
| Grid.MoveBitsOneColumn | Assets/Scripts/DungeonGenerator.cs:97-107 | on a one-column board a move to the cell below is recorded as a right/left pair, although the cell lies downward |
| Grid.OneNeighbourPerSide | Assets/Scripts/DungeonGenerator.cs:135-164 | a cell has at most one grid neighbour in each direction |
| Maze.Iterate | Assets/Scripts/DungeonGenerator.cs:66-130 | one iteration keeps every held index on the board and consumes exactly one step, whether it moves forward, backtracks or stops |
| Maze.Draw | Assets/Scripts/DungeonGenerator.cs:95 | the random pick returns an index that the neighbour scan listed, so it is on the board and unvisited |
| Maze.InitialInv | Assets/Scripts/DungeonGenerator.cs:52-64 | the walk invariant holds on the blank board with the start cell current and an empty stack |
| Maze.IterateVisits | Assets/Scripts/DungeonGenerator.cs:70 | every iteration leaves the current cell visited and never clears a visited flag |
| Maze.IterateKeeps | Assets/Scripts/DungeonGenerator.cs:66-130 | every iteration keeps the invariant: stacked cells visited, unreached cells closed, doors mirrored between neighbours, open sides = 2·(reached − 1) |
| Maze.WalkedKeeps | Assets/Scripts/DungeonGenerator.cs:66-131 | the whole loop keeps the invariant and never un-visits a cell; it runs out of steps only at the 1000-step ceiling, and otherwise ends on a visited cell |
| Maze.IterateStops | Assets/Scripts/DungeonGenerator.cs:72-85 | an iteration stops at the last index iff the current cell is the last one; it stops stuck iff there is no unvisited neighbour and the stack is empty; a stop changes only the visited flag of the current cell |
| Maze.WalkedEnds | Assets/Scripts/DungeonGenerator.cs:72-75 | a walk that ends at the last index stands on index `Count − 1` |
| Maze.IterateBacktrack | Assets/Scripts/DungeonGenerator.cs:80-89 | with no unvisited neighbour and a non-empty stack, the current cell becomes the popped top, which is visited, and no door bit changes |
| Maze.IterateForward | Assets/Scripts/DungeonGenerator.cs:91-128 | a forward move pushes the current cell and enters an unvisited grid neighbour taken from the neighbour list, opening the move's sides |
| Maze.IterateForwardBits | Assets/Scripts/DungeonGenerator.cs:97-128 | a forward move changes exactly one mirrored bit pair, on the two cells involved, and adds two open sides |
| Maze.OpenCounts | Assets/Scripts/DungeonGenerator.cs:97-128 | opening a passage between two closed sides adds exactly two open sides and no visited cell |
| Maze.OpenMoveBits | Assets/Scripts/DungeonGenerator.cs:97-128 | opening two closed facing sides flips exactly those two bits and no other, and adds two open sides |
| Maze.DoorsMirror | Assets/Scripts/DungeonGenerator.cs:97-128 | on boards at least two columns wide, the side of a cell facing a neighbour is open iff the neighbour's side facing back is open |
| Maze.DoorBack | Assets/Scripts/DungeonGenerator.cs:97-128 | while every open side is mirrored by its neighbour, each door can be walked in the other direction |
| Maze.ReachBack | Assets/Scripts/DungeonGenerator.cs:97-128 | while every open side is mirrored, a cell reachable through open doors can reach back |
| Maze.ReachGrows | Assets/Scripts/DungeonGenerator.cs:97-128 | the loop only ever opens sides, so a path of open doors stays one |
| Maze.VisitSpans | Assets/Scripts/DungeonGenerator.cs:70 | marking the current cell visited keeps every reached cell reachable from it |
| Maze.BacktrackSpans | Assets/Scripts/DungeonGenerator.cs:80-89 | after popping the stack, every reached cell is still reachable from the new current cell |
| Maze.ForwardSpans | Assets/Scripts/DungeonGenerator.cs:91-128 | after a forward move the cell entered reaches every reached cell through the door just opened |
| Maze.IterateSpans | Assets/Scripts/DungeonGenerator.cs:66-130 | every iteration keeps every reached cell reachable from the current one through open doors |
| Maze.WalkedSpans | Assets/Scripts/DungeonGenerator.cs:66-131 | the whole loop keeps the invariant together with that reachability |
| Maze.SpansConnected | Assets/Scripts/DungeonGenerator.cs:66-131 | under the invariant, reachability from the current cell joins any two reached cells |
| Maze.RunConnected | Assets/Scripts/DungeonGenerator.cs:62-131 | from the blank board, at the end of the walk any two reached cells are joined by a path of open doors |
| Maze.RunFacts | Assets/Scripts/DungeonGenerator.cs:62-131 | from the blank board the final state satisfies the invariant, took at least one step, has the start visited, and its exit reason matches its state |
| Maze.CarvePassage | Assets/Scripts/DungeonGenerator.cs:97-128 | the branchy carving code sets side f on the current cell and the opposite side on the new cell, and touches nothing else |
| Maze.WalkStep | Assets/Scripts/DungeonGenerator.cs:68-130 | one pass of the loop body, written with the source's own statements, yields exactly one reference iteration, and breaks exactly when that iteration halts |
| Maze.WalkLoop | Assets/Scripts/DungeonGenerator.cs:66-131 | the imperative loop computes exactly the reference semantics `Walked` |
| Maze.MazeGenerator | Assets/Scripts/DungeonGenerator.cs:50-131 | width·height cells; 1 to 1000 steps; start visited; stacked cells visited; doors mirrored; open sides = 2·(reached − 1); unless steps ran out, every open side belongs to a visited cell; any two reached cells are joined by a path of open doors |
| MazeScenarios.Corridor | Assets/Scripts/DungeonGenerator.cs:62-131 | on a 3×1 board from index 0 the walk carves the corridor 0–1–2 in three iterations and stops at the last index |
| MazeScenarios.SingleCell | Assets/Scripts/DungeonGenerator.cs:72-75 | on a 1×1 board the walk stops at once with one visited cell and no open side |
| MazeScenarios.OneColumnDownMove | Assets/Scripts/DungeonGenerator.cs:97-107 | on a 1×2 board the only move, downward, is recorded on bits 2 and 3 |
| MazeScenarios.StuckAtStart | Assets/Scripts/DungeonGenerator.cs:80-85 | a start cell whose neighbours are all visited, with an empty stack, ends the walk in one iteration and changes no door bit |
| Layout.GenerateDungeon | Assets/Scripts/DungeonGenerator.cs:32-48 | a room is emitted exactly for each visited cell, at its grid coordinates, with the cell's door bits unchanged; column by column; at most width·height rooms |
| Dungeon.FacingBitsAgree | Assets/Scripts/DungeonGenerator.cs:32-48 | on boards at least two columns wide, two touching emitted rooms carry the same bit on the sides facing each other |
| Dungeon.OpenSidesLeadToRooms | Assets/Scripts/DungeonGenerator.cs:32-48 | on boards at least two columns wide, when every open side belongs to a visited cell, each open side of an emitted room leads to another emitted room one step away, with the opposite side open |
| Dungeon.ShowAll | Assets/Scripts/DungeonGenerator.cs:39-42 | each emitted room is shown with its own door bits; a room template with fewer than four doors or walls faults |
| Dungeon.Fits | Assets/Scripts/DungeonGenerator.cs:41-42 | on boards at least two columns wide, shown rooms inherit the agreement of facing doors and, when steps did not run out, every active door leads into a room |
| Dungeon.BuildDungeon | Assets/Scripts/DungeonGenerator.cs:50-133 | the exit reason is the walk's; the full pipeline faults iff the template is too short; otherwise the rooms stand exactly on the cells the walk visited, each with that cell's door bits, at least one room, on the grid, in column order, doors shown from the bits, and, on boards at least two columns wide, facing doors agree and, unless steps ran out, open doors lead into rooms |
| Room.UpdateRoom | Assets/Scripts/RoomBehavior.cs:14-21 | for each side below the status length, the door is active iff the bit is set and the wall iff it is not; higher sides and anchors are untouched; a status longer than either array faults |
| Room.ShowsIdempotent | Assets/Scripts/RoomBehavior.cs:14-21 | showing the same door bits twice gives the same room as showing them once |
| Room.GetAnchorsByType | Assets/Scripts/RoomBehavior.cs:35-44 | the lookup only returns the room's own anchors, and an undeclared placement type gets none |
| Room.Eligible | Assets/Scripts/RoomBehavior.cs:25-28 | a spawnable is kept iff it is one of the inputs and its anchor list is non-empty |
| Room.EligibleAppend | Assets/Scripts/RoomBehavior.cs:25-28 | the eligibility filter distributes over concatenation, so it keeps the input order |
| Room.PopulateRoomAnchored | Assets/Scripts/RoomBehavior.cs:23-33 | each spawnable with anchors is spawned exactly once, in order, on an anchor from its own type's list; the others are skipped; one random draw per spawn |
| Room.NamedAgreesWithTyped | Assets/Scripts/RoomBehavior.cs:35-44 | for a declared type, take every transform under the room in hierarchy order; suppose the ones whose name carries a declared keyword are exactly the wall, centre and corner anchors, in that order, and each anchor's name carries only its own kind's keyword; then the name filter over all of them finds exactly the typed anchor list |
| Room.MatchingTagged | Assets/Scripts/DungeonPopulator.cs:53-57 | a declared keyword filter gives the same result after dropping the children whose name carries no declared keyword |
| Room.UndeclaredDiverges | Assets/Scripts/RoomBehavior.cs:42 | for an undeclared type the typed lookup gives nothing while the keyword filter gives every child |
| Populator.Keyword | Assets/Scripts/DungeonPopulator.cs:44-50 | the keyword is empty exactly for an undeclared placement type |
| Populator.ContainsIsOccurrence | Assets/Scripts/DungeonPopulator.cs:55 | the recursive substring test holds iff some window of the name equals the keyword |
| Populator.MatchingMembers | Assets/Scripts/DungeonPopulator.cs:52-57 | an anchor is in the filter's result iff it is in the input and its name contains the keyword |
| Populator.MatchedAt | Assets/Scripts/DungeonPopulator.cs:53-59 | the result is the input read at strictly increasing positions, and every matching position is among them |
| Populator.MatchingEmptyKeyword | Assets/Scripts/DungeonPopulator.cs:49-56 | with the empty keyword every input is returned |
| Populator.MatchingAppend | Assets/Scripts/DungeonPopulator.cs:53-57 | filtering a concatenation is the concatenation of the filtered parts |
| Populator.FindAnchorsByType | Assets/Scripts/DungeonPopulator.cs:42-60 | the loop returns exactly the inputs whose name contains the type's keyword, in input order; for an undeclared type, all of them |
| Populator.PopulateRoom | Assets/Scripts/DungeonPopulator.cs:17-40 | the spawns and the draw count are exactly those of the reference run `Populated` for the oracle's draws; at most maxObjectsPerRoom spawns, each a listed object on an anchor of the room whose name has the object's keyword; every iteration spawns when every spawnable has a matching anchor, none does when none has; one draw per iteration plus one per spawn; no spawnables faults |
| Populator.PopulateStep | Assets/Scripts/DungeonPopulator.cs:27-38 | one loop iteration, written with the source's statements, makes exactly the reference run's next spawn (at most one) and consumes its draws |
| Populator.PopulatedSound | Assets/Scripts/DungeonPopulator.cs:27-38 | every spawn of the reference run puts a listed object on one of the room's anchors whose name has its keyword |
| Populator.PopulatedFull | Assets/Scripts/DungeonPopulator.cs:28-37 | when every spawnable has a matching anchor, every iteration spawns |
| Populator.PopulatedNone | Assets/Scripts/DungeonPopulator.cs:28-34 | when no spawnable has a matching anchor, no iteration spawns |
| Inventory.AddItem | Assets/Scripts/InventorySlot.cs:9-14 | after adding x, whatever the slot held, GetItem returns x and the icon is shown |
| Inventory.ClearSlot | Assets/Scripts/InventorySlot.cs:16-21 | after clearing, GetItem returns nothing and the icon is hidden |
| Inventory.OccupiedFill | Assets/Scripts/InventoryManager.cs:23-26 | filling an empty slot raises the number of occupied slots by exactly one |
| Inventory.AddItemToBag | Assets/Scripts/InventoryManager.cs:19-31 | returns true iff some slot was empty; then fills the lowest empty slot only, and occupancy grows by one; a full bag is unchanged; icons stay consistent |
| InventoryInput.SelectSlot | Assets/Scripts/InventoryInputHandler.cs:92-110 | the cursor moves to k only when k names a slot, otherwise it stays; an in-range cursor stays in range |
| InventoryInput.NavigateSlot | Assets/Scripts/InventoryInputHandler.cs:112-134 | the slot read after the move faults exactly when the bag has no slots; otherwise the cursor ends on a slot, from any start and for any step |
| InventoryInput.NavigateIsModular | Assets/Scripts/InventoryInputHandler.cs:114-120 | one step left or right from a slot is a step modulo the slot count: left of 0 is the last slot, right of the last is 0 |
| InventoryInput.DropFromCurrentSlot | Assets/Scripts/InventoryInputHandler.cs:136-148 | a drop is requested for the selected slot iff it holds an item; an out-of-range cursor faults |
| InventoryInput.OnInventoryInput | Assets/Scripts/InventoryInputHandler.cs:53-90 | without a manager, or for any other key, nothing happens; "1"–"3" move the cursor to slots 0–2 when the bag has that slot and otherwise leave it; from a slot the arrows step by ∓1 modulo the slot count, and they fault only on an empty bag; "q"/"delete" keep the cursor, fault iff it is off the bag, and request a drop iff the selected slot holds an item |
| InventoryInput.ReplayStaysOnBag | Assets/Scripts/InventoryInputHandler.cs:53-134 | from a slot of a non-empty bag, no key sequence moves the cursor off the bag or faults, and every drop request names an occupied slot |

## Left out

- Unity effects are not modelled: `Instantiate`, `SetActive`, `transform`, `Debug.Log` messages and the `name +=` room suffix. Rooms and spawns are returned as values instead. What `GetComponentsInChildren` returns is a parameter: the room's transforms, as named anchors in hierarchy order.
- World-space room positions (`i*offset.x, 0, -j*offset.y`) are float arithmetic. Only grid coordinates are kept.
- `size` is a float `Vector2` read through `Mathf.FloorToInt` and float `%`. Width and height are modelled as positive integers.
- `startPos` is never validated by the code. `0 <= start < width*height` is a precondition of `Maze.MazeGenerator` rather than an error path.
- Random numbers are an injected oracle. No distribution is modelled, and draws are numbered per call rather than taken from one global stream.
- The start-up hooks are outside the model: `Start`, `Awake`, `OnEnable`, `OnDisable`, the input-action lookup, `ShowControls` and `DungeonPopulator.Start`. The last of these only calls `PopulateRoom` for each child room.
- `InventoryInputHandler.UpdateSlotHighlight` only re-parents a UI element and is not modelled.
- `InventoryManager.DropItemFromSlot` is called by the handler but is not defined in InventoryManager.cs. A drop is therefore modelled as a `DropRequest` effect, and the bag is left as it is.
- `InventoryManager.Start` adds a debug item to the first bag and equipment slots. It is test scaffolding and is not modelled; equipment slots are not modelled.
- Icon sprites are not modelled, only whether the icon image is enabled.
- `AddItem` with a null item or a missing icon image faults in the source. Items are modelled as non-null values.
- When `UpdateRoom` faults part-way on short arrays, the writes made before the fault are not modelled, and the fault is reported as `None`. (`NavigateSlot` on an empty bag does keep its write: the wrapped cursor, −1 or 0, is returned next to `IndexFault`.)
- Room.GetAnchorsByType: states only that the result is drawn from the room's own lists, and is empty for an undeclared type. Which list goes with which declared type is fixed by its definition and used through `Room.NamedAgreesWithTyped`.
- Maze.MazeGenerator: acyclicity of the doors is not stated as a property of its own. It follows from the connectivity it states plus the count of open sides, by the standard fact that a connected graph with one edge fewer than vertices is a tree.

=== FILE: choice.dfy ===
/**
 * The source draws every random number through `Random.Range(0, n)`. The
 * model replaces that call with an injected oracle `pick(k, n)`: `k`
 * numbers the draw, `n` is the exclusive upper bound. Nothing is assumed
 * about the distribution, only that the answer is a valid index.
 */
module Choice {

  /** An oracle for `Random.Range(0, n)`: an index below `n` whenever `n` is positive. */
  ghost predicate ValidOracle(pick: (nat, nat) -> nat) {
    forall k: nat, n: nat :: 0 < n ==> pick(k, n) < n
  }
}

=== FILE: dungeon.dfy ===
/**
 * The whole generation pipeline of `DungeonGenerator`: the walk carves the
 * board, the emission pass places one room per visited cell, and each room
 * is shown with its cell's door bits. On boards at least two columns wide
 * the rooms fit together: facing doors of touching rooms agree, and when
 * the walk did not run out of steps every open door leads into a room.
 */
module Dungeon {
  import opened Wrappers
  import opened Choice
  import opened Grid
  import opened Maze
  import opened Layout
  import opened Room

  /** One instantiated room: where it stands and its shown state. */
  datatype Built<H> = Built(at: Placement, room: RoomState<H>)

  /** Where each built room stands, in build order. */
  function Sites<H>(built: seq<Built<H>>): (r: seq<Placement>)
    ensures |r| == |built| && forall k :: 0 <= k < |r| ==> r[k] == built[k].at
  {
    seq(|built|, k requires 0 <= k < |built| => built[k].at)
  }

  /** Two placements one grid step apart. */
  predicate Touching(p: Placement, q: Placement) {
    || (p.y == q.y && (q.x == p.x + 1 || p.x == q.x + 1))
    || (p.x == q.x && (q.y == p.y + 1 || p.y == q.y + 1))
  }

  /** The side of `p` that faces `q` (rows grow downward, columns to the right). */
  function Facing(p: Placement, q: Placement): nat {
    if q.y < p.y then Up
    else if q.y > p.y then Down
    else if q.x > p.x then Right
    else Left
  }

  /** The grid step that side `d` of a room at (`x`, `y`) leads to. */
  function Beyond(x: int, y: int, d: nat): (int, int) {
    if d == Up then (x, y - 1)
    else if d == Down then (x, y + 1)
    else if d == Right then (x + 1, y)
    else (x - 1, y)
  }

  /** Touching placements are adjacent cells, and the side facing the other is the geometric direction. */
  lemma PlacementGeometry(size: Size, p: Placement, q: Placement)
    requires size.Valid()
    requires 0 <= p.x < size.width && 0 <= p.y < size.height
    requires 0 <= q.x < size.width && 0 <= q.y < size.height
    requires Touching(p, q)
    ensures Adjacent(size, Index(size, p.x, p.y), Index(size, q.x, q.y))
    ensures GeoDir(size, Index(size, p.x, p.y), Index(size, q.x, q.y)) == Facing(p, q)
  {
    IndexCoords(size, p.x, p.y);
    IndexCoords(size, q.x, q.y);
  }

  /** On a board at least two columns wide, an open side leads to the cell one step away in that side's direction. */
  lemma LinkedBeyond(size: Size, board: seq<Cell>, x: int, y: int, d: nat)
    requires WellFormed(size, board) && DoorsLinked(size, board) && size.width >= 2
    requires 0 <= x < size.width && 0 <= y < size.height && d < Sides
    requires CellAt(size, board, x, y).status[d]
    ensures var (x', y') := Beyond(x, y, d);
      && 0 <= x' < size.width && 0 <= y' < size.height
      && Partner(size, Index(size, x, y), d) == Index(size, x', y')
  {
    var c := Index(size, x, y);
    var p := Partner(size, c, d);
    IndexCoords(size, x, y);
    assert 0 <= p < |board| && Adjacent(size, c, p) && GeoDir(size, c, p) == d by {
      assert Linked(size, board, c, d);
    }
    CoordsOf(size, p);
    assert (Col(size, p), Row(size, p)) == Beyond(x, y, d);
  }

  /** What the emission pass promises about its placements (see `Layout.GenerateDungeon`). */
  predicate Emitted(size: Size, board: seq<Cell>, placements: seq<Placement>)
    requires WellFormed(size, board)
  {
    && (forall k :: 0 <= k < |placements| ==>
      && 0 <= placements[k].x < size.width && 0 <= placements[k].y < size.height
      && CellAt(size, board, placements[k].x, placements[k].y).visited
      && placements[k].status == CellAt(size, board, placements[k].x, placements[k].y).status)
    && (forall x, y :: 0 <= x < size.width && 0 <= y < size.height && CellAt(size, board, x, y).visited ==>
      Placement(x, y, CellAt(size, board, x, y).status) in placements)
  }

  /** On a board at least two columns wide, touching placements show the same bit on the sides facing each other. */
  lemma FacingBitsAgree(size: Size, board: seq<Cell>, placements: seq<Placement>, k: int, l: int)
    requires WellFormed(size, board) && DoorsLinked(size, board) && size.width >= 2
    requires Emitted(size, board, placements)
    requires 0 <= k < |placements| && 0 <= l < |placements| && Touching(placements[k], placements[l])
    ensures Facing(placements[k], placements[l]) < Sides && Facing(placements[l], placements[k]) < Sides
    ensures placements[k].status[Facing(placements[k], placements[l])] <==>
            placements[l].status[Facing(placements[l], placements[k])]
  {
    var p, q := placements[k], placements[l];
    PlacementGeometry(size, p, q);
    PlacementGeometry(size, q, p);
    DoorsMirror(size, board, Index(size, p.x, p.y), Index(size, q.x, q.y));
  }

  /**
   * When every open side belongs to a visited cell, on a board at least
   * two columns wide each open side of a placement leads to another
   * placement one step away whose opposite side is open.
   */
  lemma OpenSidesLeadToRooms(size: Size, board: seq<Cell>, placements: seq<Placement>, k: int, d: nat)
    requires WellFormed(size, board) && DoorsLinked(size, board) && size.width >= 2
    requires forall c, e :: 0 <= c < |board| && 0 <= e < Sides && board[c].status[e] ==> board[c].visited
    requires Emitted(size, board, placements)
    requires 0 <= k < |placements| && d < Sides && placements[k].status[d]
    ensures exists l :: (0 <= l < |placements| &&
      (placements[l].x, placements[l].y) == Beyond(placements[k].x, placements[k].y, d) && placements[l].status[Opp(d)])
  {
    var p := placements[k];
    LinkedBeyond(size, board, p.x, p.y, d);
    var (x', y') := Beyond(p.x, p.y, d);
    var c := Index(size, p.x, p.y);
    assert Linked(size, board, c, d);
    var cell := CellAt(size, board, x', y');
    assert cell.status[Opp(d)] && cell.visited;
    var q := Placement(x', y', cell.status);
    assert q in placements;
    var l :| 0 <= l < |placements| && placements[l] == q;
  }

  /** A visited start cell gives at least one placement. */
  lemma StartEmitted(size: Size, board: seq<Cell>, placements: seq<Placement>, start: int)
    requires WellFormed(size, board) && Emitted(size, board, placements)
    requires 0 <= start < |board| && board[start].visited
    ensures |placements| >= 1
  {
    CoordsOf(size, start);
    var x, y := Col(size, start), Row(size, start);
    assert CellAt(size, board, x, y) == board[start];
    assert Placement(x, y, board[start].status) in placements;
  }

  /** Shows each placement's door bits on a copy of `template`; a template with too few doors or walls faults. */
  method ShowAll<H>(template: RoomState<H>, placements: seq<Placement>) returns (built: seq<Built<H>>, fault: bool)
    requires forall k :: 0 <= k < |placements| ==> |placements[k].status| == Sides
    ensures fault <==> |placements| > 0 && (|template.doors| < Sides || |template.walls| < Sides)
    ensures !fault ==> |built| == |placements|
    ensures !fault ==> forall k :: 0 <= k < |built| ==>
      built[k].at == placements[k] && Shows(template, placements[k].status, built[k].room)
  {
    built := [];
    var i := 0;
    while i < |placements|
      invariant 0 <= i <= |placements| && |built| == i
      invariant i > 0 ==> |template.doors| >= Sides && |template.walls| >= Sides
      invariant forall k :: 0 <= k < i ==>
        built[k].at == placements[k] && Shows(template, placements[k].status, built[k].room)
    {
      var r := UpdateRoom(template, placements[i].status);
      if r.None? {
        return [], true;
      }
      built := built + [Built(placements[i], r.value)];
      i := i + 1;
    }
    fault := false;
  }

  /** The shown rooms inherit the facing and leading properties of the placements. */
  lemma Fits<H>(size: Size, board: seq<Cell>, placements: seq<Placement>, built: seq<Built<H>>,
                template: RoomState<H>, exit: Exit)
    requires WellFormed(size, board) && DoorsLinked(size, board) && Emitted(size, board, placements)
    requires exit != Exhausted ==>
      forall c, e :: 0 <= c < |board| && 0 <= e < Sides && board[c].status[e] ==> board[c].visited
    requires |template.doors| >= Sides && |built| == |placements|
    requires forall k :: 0 <= k < |built| ==>
      && built[k].at == placements[k] && |built[k].room.doors| == |template.doors|
      && Shows(template, placements[k].status, built[k].room)
    ensures size.width >= 2 ==> forall k, l ::
      0 <= k < |built| && 0 <= l < |built| && Touching(built[k].at, built[l].at) ==>
      (built[k].room.doors[Facing(built[k].at, built[l].at)] <==> built[l].room.doors[Facing(built[l].at, built[k].at)])
    ensures size.width >= 2 && exit != Exhausted ==> forall k, d ::
      0 <= k < |built| && 0 <= d < Sides && built[k].room.doors[d] ==>
      exists l :: 0 <= l < |built| &&
        (built[l].at.x, built[l].at.y) == Beyond(built[k].at.x, built[k].at.y, d) && built[l].room.doors[Opp(d)]
  {
    if size.width >= 2 {
      forall k, l | 0 <= k < |built| && 0 <= l < |built| && Touching(built[k].at, built[l].at)
        ensures built[k].room.doors[Facing(built[k].at, built[l].at)] <==> built[l].room.doors[Facing(built[l].at, built[k].at)]
      {
        FacingBitsAgree(size, board, placements, k, l);
      }
      if exit != Exhausted {
        forall k, d | 0 <= k < |built| && 0 <= d < Sides && built[k].room.doors[d]
          ensures exists l :: (0 <= l < |built| &&
            (built[l].at.x, built[l].at.y) == Beyond(built[k].at.x, built[k].at.y, d) && built[l].room.doors[Opp(d)])
        {
          OpenSidesLeadToRooms(size, board, placements, k, d);
          var l :| 0 <= l < |placements| &&
            (placements[l].x, placements[l].y) == Beyond(placements[k].x, placements[k].y, d) &&
            placements[l].status[Opp(d)];
          assert built[l].room.doors[Opp(d)];
        }
      }
    }
  }

  /**
   * `MazeGenerator` followed by `GenerateDungeon`: walks the board, emits a
   * room per visited cell and shows each room's doors. A room template with
   * fewer than four doors or walls faults at the first room. The exit is
   * the walk's, and the rooms stand exactly on the cells the walk visited,
   * each with that cell's door bits.
   */
  method BuildDungeon<H>(size: Size, start: int, pick: (nat, nat) -> nat, template: RoomState<H>)
    returns (built: seq<Built<H>>, exit: Exit, fault: bool)
    requires size.Valid() && 0 <= start < size.width * size.height && ValidOracle(pick)
    ensures exit == Walked(size, Initial(size, start), pick).1
    ensures fault <==> |template.doors| < Sides || |template.walls| < Sides
    ensures !fault ==> var final := Walked(size, Initial(size, start), pick).0.board;
      WellFormed(size, final) && Emitted(size, final, Sites(built))
    ensures !fault ==> 1 <= |built| <= size.width * size.height
    ensures !fault ==> forall k :: 0 <= k < |built| ==>
      && 0 <= built[k].at.x < size.width && 0 <= built[k].at.y < size.height
      && |built[k].room.doors| == |template.doors| >= Sides
      && Shows(template, built[k].at.status, built[k].room)
    ensures !fault ==> forall k, l :: 0 <= k < l < |built| ==> Before(built[k].at, built[l].at)
    ensures !fault && size.width >= 2 ==> forall k, l ::
      0 <= k < |built| && 0 <= l < |built| && Touching(built[k].at, built[l].at) ==>
      (built[k].room.doors[Facing(built[k].at, built[l].at)] <==> built[l].room.doors[Facing(built[l].at, built[k].at)])
    ensures !fault && size.width >= 2 && exit != Exhausted ==> forall k, d ::
      0 <= k < |built| && 0 <= d < Sides && built[k].room.doors[d] ==>
      exists l :: 0 <= l < |built| &&
        (built[l].at.x, built[l].at.y) == Beyond(built[k].at.x, built[k].at.y, d) && built[l].room.doors[Opp(d)]
  {
    var board, current, path, steps;
    board, current, path, steps, exit := MazeGenerator(size, start, pick);
    var placements := GenerateDungeon(size, board);
    assert Emitted(size, board, placements);
    StartEmitted(size, board, placements, start);
    built, fault := ShowAll(template, placements);
    if !fault {
      Fits(size, board, placements, built, template, exit);
      assert Sites(built) == placements;
    }
  }
}

=== FILE: grid.dfy ===
/**
 * The dungeon board: a width × height grid of cells stored as one flat
 * sequence in row-major order (cell `x + y * width` sits in column `x`,
 * row `y`), the geometry of that layout, and the two pieces of the
 * generator that only look at the board: the neighbour scan
 * (`CheckNeighbors`) and the classification of a move into a pair of
 * door bits.
 */
module Grid {

  /** One board position: reached by the walk or not, and one open flag per side. */
  datatype Cell = Cell(visited: bool, status: seq<bool>)

  /** Side indices, shared by the generator and the room prefab. */
  const Up: nat := 0
  const Down: nat := 1
  const Right: nat := 2
  const Left: nat := 3
  const Sides: nat := 4

  /**
   * Board dimensions. The source keeps them in a float vector; they are
   * integral in practice, so they are modelled as integers.
   */
  datatype Size = Size(width: int, height: int) {
    predicate Valid() { width >= 1 && height >= 1 }
    function Count(): int { width * height }
  }

  /** A cell as the source constructs it: unvisited, all four sides closed. */
  function Blank(): Cell {
    Cell(false, [false, false, false, false])
  }

  function BlankBoard(size: Size): seq<Cell>
    requires size.Valid()
  {
    seq(size.Count(), _ => Blank())
  }

  predicate WellFormed(size: Size, board: seq<Cell>) {
    && size.Valid()
    && |board| == size.Count()
    && forall c :: 0 <= c < |board| ==> |board[c].status| == Sides
  }

  /** The board set-up: one blank cell per grid position, added column by column. */
  method NewBoard(size: Size) returns (board: seq<Cell>)
    requires size.Valid()
    ensures |board| == size.width * size.height
    ensures forall c :: 0 <= c < |board| ==> !board[c].visited
    ensures WellFormed(size, board)
    ensures forall c, d :: 0 <= c < |board| && 0 <= d < Sides ==> !board[c].status[d]
    ensures board == BlankBoard(size)
  {
    board := [];
    var i := 0;
    while i < size.width
      invariant 0 <= i <= size.width
      invariant |board| == i * size.height
      invariant forall c :: 0 <= c < |board| ==> board[c] == Blank()
    {
      var j := 0;
      while j < size.height
        invariant 0 <= j <= size.height
        invariant |board| == i * size.height + j
        invariant forall c :: 0 <= c < |board| ==> board[c] == Blank()
      {
        board := board + [Blank()];
        j := j + 1;
      }
      assert (i + 1) * size.height == i * size.height + size.height;
      i := i + 1;
    }
  }

  // ---------------------------------------------------------------------
  // Geometry
  // ---------------------------------------------------------------------

  function Row(size: Size, c: int): int
    requires size.Valid()
  {
    c / size.width
  }

  function Col(size: Size, c: int): int
    requires size.Valid()
  {
    c % size.width
  }

  /** The flat index of column `x`, row `y`. */
  function Index(size: Size, x: int, y: int): int {
    x + y * size.width
  }

  /** Every in-range (column, row) pair names a distinct cell on the board, at those coordinates. */
  lemma IndexCoords(size: Size, x: int, y: int)
    requires size.Valid() && 0 <= x < size.width && 0 <= y < size.height
    ensures 0 <= Index(size, x, y) < size.Count()
    ensures Row(size, Index(size, x, y)) == y && Col(size, Index(size, x, y)) == x
  {
    DivModOf(size.width, y, x);
    assert y * size.width <= (size.height - 1) * size.width;
    assert (size.height - 1) * size.width + size.width == size.Count();
  }

  /** Every cell of the board has in-range coordinates, and they index it back. */
  lemma CoordsOf(size: Size, c: int)
    requires size.Valid() && 0 <= c < size.Count()
    ensures 0 <= Col(size, c) < size.width && 0 <= Row(size, c) < size.height
    ensures Index(size, Col(size, c), Row(size, c)) == c
  {
    var q := Row(size, c);
    assert q * size.width <= c;
    if q > size.height {
      MulAtLeast(q - size.height, size.width);
    }
  }

  /** Axis-aligned adjacency in (column, row) coordinates; diagonals are not adjacent. */
  predicate Adjacent(size: Size, a: int, b: int)
    requires size.Valid()
  {
    || (Row(size, a) == Row(size, b) && (Col(size, b) == Col(size, a) + 1 || Col(size, a) == Col(size, b) + 1))
    || (Col(size, a) == Col(size, b) && (Row(size, b) == Row(size, a) + 1 || Row(size, a) == Row(size, b) + 1))
  }

  /** The side of `a` that faces `b`, read from coordinates. */
  function GeoDir(size: Size, a: int, b: int): nat
    requires size.Valid()
  {
    if Row(size, b) < Row(size, a) then Up
    else if Row(size, b) > Row(size, a) then Down
    else if Col(size, b) > Col(size, a) then Right
    else Left
  }

  /** The side opposite `d`. */
  function Opp(d: nat): nat {
    if d == Up then Down
    else if d == Down then Up
    else if d == Right then Left
    else Right
  }

  /** The index that the door bit `d` of cell `c` leads to, by index arithmetic. */
  function Partner(size: Size, c: int, d: nat): int {
    if d == Up then c - size.width
    else if d == Down then c + size.width
    else if d == Right then c + 1
    else c - 1
  }

  lemma {:induction false} MulAtLeast(k: nat, w: int)
    requires w >= 1 && k >= 1
    ensures k * w >= w
    decreases k
  {
    if k > 1 {
      MulAtLeast(k - 1, w);
      assert k * w == (k - 1) * w + w;
    }
  }

  lemma MulAway(k: int, w: int)
    requires w >= 1
    ensures k == 0 || k * w >= w || k * w <= -w
  {
    if k > 0 {
      MulAtLeast(k, w);
    } else if k < 0 {
      MulAtLeast(-k, w);
      assert k * w == -((-k) * w);
    }
  }

  /** Euclidean division by `w` recovers quotient and remainder. */
  lemma DivModOf(w: int, q: int, r: int)
    requires w >= 1 && 0 <= r < w
    ensures (q * w + r) / w == q && (q * w + r) % w == r
  {
    var a := q * w + r;
    var k := q - a / w;
    assert k * w == a % w - r;
    MulAway(k, w);
  }

  /** The four candidates the neighbour scan tries sit where coordinates say. */
  lemma CandidateCoords(size: Size, a: int)
    requires size.Valid() && 0 <= a
    ensures Row(size, a - size.width) == Row(size, a) - 1 && Col(size, a - size.width) == Col(size, a)
    ensures Row(size, a + size.width) == Row(size, a) + 1 && Col(size, a + size.width) == Col(size, a)
    ensures (a + 1) % size.width != 0 ==>
      Row(size, a + 1) == Row(size, a) && Col(size, a + 1) == Col(size, a) + 1
    ensures a % size.width != 0 ==>
      Row(size, a - 1) == Row(size, a) && Col(size, a - 1) == Col(size, a) - 1
  {
    VerticalCoords(size, a, -1);
    VerticalCoords(size, a, 1);
    if (a + 1) % size.width != 0 {
      RightCoords(size, a);
    }
    if a % size.width != 0 {
      LeftCoords(size, a);
    }
  }

  lemma VerticalCoords(size: Size, a: int, k: int)
    requires size.Valid() && 0 <= a && (k == 1 || k == -1)
    ensures Row(size, a + k * size.width) == Row(size, a) + k && Col(size, a + k * size.width) == Col(size, a)
  {
    var w := size.width;
    var ra, ca := Row(size, a), Col(size, a);
    assert a + k * w == (ra + k) * w + ca;
    DivModOf(w, ra + k, ca);
  }

  lemma RightCoords(size: Size, a: int)
    requires size.Valid() && 0 <= a && (a + 1) % size.width != 0
    ensures Row(size, a + 1) == Row(size, a) && Col(size, a + 1) == Col(size, a) + 1
  {
    var w := size.width;
    var ra, ca := Row(size, a), Col(size, a);
    if ca + 1 == w {
      assert a + 1 == (ra + 1) * w + 0;
      DivModOf(w, ra + 1, 0);
    }
    assert a + 1 == ra * w + (ca + 1);
    DivModOf(w, ra, ca + 1);
  }

  lemma LeftCoords(size: Size, a: int)
    requires size.Valid() && 0 <= a && a % size.width != 0
    ensures Row(size, a - 1) == Row(size, a) && Col(size, a - 1) == Col(size, a) - 1
  {
    var w := size.width;
    var ra, ca := Row(size, a), Col(size, a);
    assert a - 1 == ra * w + (ca - 1);
    DivModOf(w, ra, ca - 1);
  }

  /** `b` is one of the four cells the neighbour scan tries for `a`: up, down, right unless `a` ends a row, left unless it starts one. */
  predicate Candidate(size: Size, a: int, b: int)
    requires size.Valid()
  {
    Beside(size.width, a, b, (a + 1) % size.width != 0, a % size.width != 0)
  }

  /** `b` is `a`'s up or down candidate on a grid `w` wide, or its right or left one when that side is open. */
  predicate Beside(w: int, a: int, b: int, right: bool, left: bool) {
    || b == a - w
    || b == a + w
    || (right && b == a + 1)
    || (left && b == a - 1)
  }

  /** A grid neighbour of `a` is one of the four candidates of the neighbour scan. */
  lemma AdjacentIsCandidate(size: Size, a: int, b: int)
    requires size.Valid() && Adjacent(size, a, b)
    ensures
      || b == a - size.width
      || b == a + size.width
      || (b == a + 1 && (a + 1) % size.width != 0)
      || (b == a - 1 && a % size.width != 0)
  {
    var w := size.width;
    var ra, ca := Row(size, a), Col(size, a);
    var rb, cb := Row(size, b), Col(size, b);
    assert a == ra * w + ca;
    assert b == rb * w + cb;
    if rb == ra + 1 {
      assert b == a + w;
    } else if ra == rb + 1 {
      assert b == a - w;
    }
  }

  /**
   * Index arithmetic and coordinates agree: `b` is a grid neighbour of `a`
   * exactly when it is one of the four candidates of the neighbour scan,
   * with left and right confined to `a`'s row.
   */
  lemma AdjacentByIndex(size: Size, a: int, b: int)
    requires size.Valid() && 0 <= a
    ensures Adjacent(size, a, b) <==> Candidate(size, a, b)
  {
    CandidateCoords(size, a);
    if Adjacent(size, a, b) {
      AdjacentIsCandidate(size, a, b);
    }
  }

  // ---------------------------------------------------------------------
  // Neighbour scan (CheckNeighbors)
  // ---------------------------------------------------------------------

  /**
   * One probe of the neighbour scan: `[b]` when the probe's own guard
   * holds and `b` is an unvisited cell of the board, otherwise nothing.
   */
  function Probe(board: seq<Cell>, guard: bool, b: int): (r: seq<int>)
    ensures |r| <= 1 && (|r| == 1 ==> r[0] == b)
    ensures forall x :: x in r <==> guard && x == b && 0 <= b < |board| && !board[b].visited
  {
    if guard && 0 <= b < |board| && !board[b].visited then [b] else []
  }

  /** Runs the probes `(guard, cell)` in order and concatenates what they find. */
  function Collect(board: seq<Cell>, probes: seq<(bool, int)>): seq<int>
    decreases |probes|
  {
    if |probes| == 0 then [] else Probe(board, probes[0].0, probes[0].1) + Collect(board, probes[1..])
  }

  /** The probes of the scan on a grid `w` wide: up, down, then right and left under their row tests. */
  function Probes(w: int, cell: int, right: bool, left: bool): seq<(bool, int)> {
    [(true, cell - w), (true, cell + w), (right, cell + 1), (left, cell - 1)]
  }

  /**
   * The four probes of the scan, unrolled: what `Collect` computes on
   * `Probes` (`CollectProbes`).
   */
  function Scan(board: seq<Cell>, w: int, cell: int, right: bool, left: bool): seq<int> {
    Probe(board, true, cell - w)
      + (Probe(board, true, cell + w)
      + (Probe(board, right, cell + 1)
      + Probe(board, left, cell - 1)))
  }

  /**
   * The unvisited grid neighbours of `cell`, tried in the order up, down,
   * right, left. Up and down are guarded by the board's ends, right and
   * left by the row boundary; the board has `width * height` cells, so a
   * right neighbour that passes the row test is always on the board
   * (`RightOnBoard`).
   */
  function CheckNeighbors(size: Size, board: seq<Cell>, cell: int): (r: seq<int>)
    requires size.Valid() && |board| == size.Count() && 0 <= cell < |board|
    ensures forall x :: x in r ==> 0 <= x < |board| && !board[x].visited
  {
    var right, left := (cell + 1) % size.width != 0, cell % size.width != 0;
    CollectProbes(board, size.width, cell, right, left);
    ScanMembers(board, size.width, cell, right, left);
    Collect(board, Probes(size.width, cell, right, left))
  }

  /** Collecting the scan's probes gives the unrolled scan. */
  lemma CollectProbes(board: seq<Cell>, w: int, cell: int, right: bool, left: bool)
    ensures Collect(board, Probes(w, cell, right, left)) == Scan(board, w, cell, right, left)
  {
    var ps := Probes(w, cell, right, left);
    var p0, p1 := Probe(board, true, cell - w), Probe(board, true, cell + w);
    var p2, p3 := Probe(board, right, cell + 1), Probe(board, left, cell - 1);
    assert ps[1..] == [(true, cell + w), (right, cell + 1), (left, cell - 1)];
    assert ps[2..] == [(right, cell + 1), (left, cell - 1)] == ps[1..][1..];
    assert ps[3..] == [(left, cell - 1)] == ps[2..][1..];
    assert ps[3..][1..] == [];
    assert Collect(board, ps[3..]) == p3 + [] == p3;
    assert Collect(board, ps[2..]) == p2 + p3;
    assert Collect(board, ps[1..]) == p1 + (p2 + p3);
    assert Collect(board, ps) == p0 + (p1 + (p2 + p3));
  }

  /** The neighbour scan is its four probes, concatenated in order. */
  lemma CheckNeighborsScan(size: Size, board: seq<Cell>, cell: int)
    requires size.Valid() && |board| == size.Count() && 0 <= cell < |board|
    ensures CheckNeighbors(size, board, cell) ==
      Scan(board, size.width, cell, (cell + 1) % size.width != 0, cell % size.width != 0)
  {
    CollectProbes(board, size.width, cell, (cell + 1) % size.width != 0, cell % size.width != 0);
  }

  /**
   * `CheckNeighbors` returns exactly the unvisited grid neighbours of
   * `cell` (never across a row boundary, never diagonal), in the order up,
   * down, right, left.
   */
  lemma CheckNeighborsExact(size: Size, board: seq<Cell>, cell: int)
    requires size.Valid() && |board| == size.Count() && 0 <= cell < |board|
    ensures forall x :: x in CheckNeighbors(size, board, cell) <==>
      0 <= x < |board| && Adjacent(size, cell, x) && !board[x].visited
    ensures DirSorted(size, cell, CheckNeighbors(size, board, cell))
  {
    CheckNeighborsMembers(size, board, cell);
    CheckNeighborsSorted(size, board, cell);
  }

  lemma CheckNeighborsMembers(size: Size, board: seq<Cell>, cell: int)
    requires size.Valid() && |board| == size.Count() && 0 <= cell < |board|
    ensures forall x :: x in CheckNeighbors(size, board, cell) <==>
      0 <= x < |board| && Adjacent(size, cell, x) && !board[x].visited
  {
    var right, left := (cell + 1) % size.width != 0, cell % size.width != 0;
    var r := CheckNeighbors(size, board, cell);
    assert forall x :: x in r <==> 0 <= x < |board| && !board[x].visited && Beside(size.width, cell, x, right, left) by {
      CheckNeighborsScan(size, board, cell);
      ScanMembers(board, size.width, cell, right, left);
    }
    forall x | 0 <= x < |board|
      ensures Adjacent(size, cell, x) <==> Beside(size.width, cell, x, right, left)
    {
      AdjacentByIndex(size, cell, x);
    }
  }

  lemma CheckNeighborsSorted(size: Size, board: seq<Cell>, cell: int)
    requires size.Valid() && |board| == size.Count() && 0 <= cell < |board|
    ensures DirSorted(size, cell, CheckNeighbors(size, board, cell))
  {
    CheckNeighborsScan(size, board, cell);
    CandidateDirs(size, cell);
    ScanSorted(SideOf(size, cell), board, size.width, cell, (cell + 1) % size.width != 0, cell % size.width != 0);
  }

  /** The scan holds exactly the unvisited board cells among the candidates. */
  lemma ScanMembers(board: seq<Cell>, w: int, cell: int, right: bool, left: bool)
    ensures forall x :: x in Scan(board, w, cell, right, left) <==>
      0 <= x < |board| && !board[x].visited && Beside(w, cell, x, right, left)
  {
    var p1, p2, p3, p4 := Probe(board, true, cell - w), Probe(board, true, cell + w), Probe(board, right, cell + 1), Probe(board, left, cell - 1);
    forall x
      ensures x in p1 + (p2 + (p3 + p4)) <==> x in p1 || x in p2 || x in p3 || x in p4
    {
    }
  }

  /** When each candidate faces its own side, the scan lists cells in side order. */
  lemma ScanSorted(side: int -> nat, board: seq<Cell>, w: int, cell: int, right: bool, left: bool)
    requires side(cell - w) == Up && side(cell + w) == Down
    requires right ==> side(cell + 1) == Right
    requires left ==> side(cell - 1) == Left
    ensures Increasing(side, Scan(board, w, cell, right, left))
  {
    NeighborsOrder(side, Probe(board, true, cell - w), Probe(board, true, cell + w),
                   Probe(board, right, cell + 1), Probe(board, left, cell - 1));
  }

  /** The last cell ends a row, so a cell whose right candidate passes the row test has it on the board. */
  lemma RightOnBoard(size: Size, c: int)
    requires size.Valid() && 0 <= c < size.Count()
    ensures (c + 1) % size.width != 0 ==> c + 1 < size.Count()
  {
    assert size.Count() == size.height * size.width + 0;
    DivModOf(size.width, size.height, 0);
  }

  /** The sides of `cell` that the elements of `r` face strictly increase along `r`. */
  predicate DirSorted(size: Size, cell: int, r: seq<int>)
    requires size.Valid()
  {
    Increasing(SideOf(size, cell), r)
  }

  /** The side of `cell` that each index faces. */
  function SideOf(size: Size, cell: int): int -> nat
    requires size.Valid()
  {
    x => GeoDir(size, cell, x)
  }

  /** `side` strictly increases along `r`. */
  predicate Increasing(side: int -> nat, r: seq<int>) {
    forall i, j :: 0 <= i < j < |r| ==> side(r[i]) < side(r[j])
  }

  /** Putting at most one cell facing side `d` before cells facing later sides keeps the order. */
  lemma DirSortedPrepend(side: int -> nat, x: seq<int>, s: seq<int>, d: nat)
    requires |x| <= 1 && Increasing(side, s)
    requires |x| == 1 ==> side(x[0]) == d
    requires forall j :: 0 <= j < |s| ==> d < side(s[j])
    ensures Increasing(side, x + s)
    ensures forall j :: 0 <= j < |x + s| ==> d <= side((x + s)[j])
  {
    var r := x + s;
    forall i, j | 0 <= i < j < |r|
      ensures side(r[i]) < side(r[j])
    {
      if i < |x| {
        assert r[j] == s[j - |x|];
      } else {
        assert r[i] == s[i - |x|] && r[j] == s[j - |x|];
      }
    }
    forall j | 0 <= j < |r|
      ensures d <= side(r[j])
    {
      if j >= |x| {
        assert r[j] == s[j - |x|];
      }
    }
  }

  /** The four candidates face up, down, right and left respectively. */
  lemma CandidateDirs(size: Size, a: int)
    requires size.Valid() && 0 <= a
    ensures GeoDir(size, a, a - size.width) == Up
    ensures GeoDir(size, a, a + size.width) == Down
    ensures (a + 1) % size.width != 0 ==> GeoDir(size, a, a + 1) == Right
    ensures a % size.width != 0 ==> GeoDir(size, a, a - 1) == Left
  {
    CandidateCoords(size, a);
  }

  lemma NeighborsOrder(side: int -> nat, up: seq<int>, down: seq<int>, right: seq<int>, left: seq<int>)
    requires |up| <= 1 && |down| <= 1 && |right| <= 1 && |left| <= 1
    requires |up| == 1 ==> side(up[0]) == Up
    requires |down| == 1 ==> side(down[0]) == Down
    requires |right| == 1 ==> side(right[0]) == Right
    requires |left| == 1 ==> side(left[0]) == Left
    ensures Increasing(side, up + (down + (right + left)))
  {
    assert left + [] == left;
    DirSortedPrepend(side, left, [], Left);
    DirSortedPrepend(side, right, left, Right);
    DirSortedPrepend(side, down, right + left, Down);
    DirSortedPrepend(side, up, down + (right + left), Up);
  }

  // ---------------------------------------------------------------------
  // Door bits of a move
  // ---------------------------------------------------------------------

  /**
   * The pair (side opened on `from`, side opened on `to`) for a move from
   * `from` to `to`. A move is read as right or left purely from an index
   * difference of one, so on a one-column board a downward move is
   * recorded on sides 2 and 3.
   */
  function MoveBits(from: int, to: int): (nat, nat) {
    if to > from then
      if to - 1 == from then (Right, Left) else (Down, Up)
    else
      if to + 1 == from then (Left, Right) else (Up, Down)
  }

  lemma AdjacentSymmetric(size: Size, a: int, b: int)
    requires size.Valid()
    ensures Adjacent(size, a, b) <==> Adjacent(size, b, a)
  {
  }

  /**
   * For every move between grid neighbours the two sides it opens are
   * opposite, and each one's partner index is the other cell.
   */
  lemma MoveBitsLink(size: Size, a: int, b: int)
    requires size.Valid() && 0 <= a && Adjacent(size, a, b)
    ensures MoveBits(a, b).0 < Sides && MoveBits(a, b).1 == Opp(MoveBits(a, b).0)
    ensures Partner(size, a, MoveBits(a, b).0) == b
    ensures Partner(size, b, MoveBits(a, b).1) == a
  {
    AdjacentByIndex(size, a, b);
  }

  /** On a board at least two columns wide the sides a move opens are the geometric ones. */
  lemma MoveBitsGeometry(size: Size, a: int, b: int)
    requires size.Valid() && size.width >= 2 && 0 <= a && 0 <= b && Adjacent(size, a, b)
    ensures MoveBits(a, b).0 == GeoDir(size, a, b)
    ensures MoveBits(a, b).1 == GeoDir(size, b, a)
  {
    AdjacentByIndex(size, a, b);
    AdjacentSymmetric(size, a, b);
    AdjacentByIndex(size, b, a);
    CandidateDirs(size, a);
    CandidateDirs(size, b);
  }

  /** On a one-column board a move down is recorded as a right/left pair. */
  lemma MoveBitsOneColumn(size: Size, a: int)
    requires size.Valid() && size.width == 1 && 0 <= a
    ensures Adjacent(size, a, a + 1) && GeoDir(size, a, a + 1) == Down
    ensures MoveBits(a, a + 1) == (Right, Left)
  {
    CandidateCoords(size, a);
  }

  /** Seen from the other cell, a neighbour lies on the opposite side. */
  lemma GeoDirOpposite(size: Size, a: int, b: int)
    requires size.Valid() && Adjacent(size, a, b)
    ensures GeoDir(size, b, a) == Opp(GeoDir(size, a, b))
  {
  }

  /** A cell has at most one neighbour on each side. */
  lemma OneNeighbourPerSide(size: Size, a: int, b: int, p: int)
    requires size.Valid() && Adjacent(size, a, b) && Adjacent(size, a, p)
    requires GeoDir(size, a, b) == GeoDir(size, a, p)
    ensures b == p
  {
    var w := size.width;
    assert b == Row(size, b) * w + Col(size, b);
    assert p == Row(size, p) * w + Col(size, p);
  }

  // ---------------------------------------------------------------------
  // Counting open sides and visited cells
  // ---------------------------------------------------------------------

  function CountTrue(s: seq<bool>): nat {
    if |s| == 0 then 0 else CountTrue(s[..|s| - 1]) + (if s[|s| - 1] then 1 else 0)
  }

  function SumOf(board: seq<Cell>, f: Cell -> nat): nat {
    if |board| == 0 then 0 else SumOf(board[..|board| - 1], f) + f(board[|board| - 1])
  }

  function OpenSides(cell: Cell): nat {
    CountTrue(cell.status)
  }

  function VisitedMark(cell: Cell): nat {
    if cell.visited then 1 else 0
  }

  /** Total number of open sides on the board; twice the number of open door pairs. */
  function OpenBits(board: seq<Cell>): nat {
    SumOf(board, OpenSides)
  }

  function VisitedCount(board: seq<Cell>): nat {
    SumOf(board, VisitedMark)
  }

  lemma {:induction false} CountTrueSet(s: seq<bool>, d: int)
    requires 0 <= d < |s| && !s[d]
    ensures CountTrue(s[d := true]) == CountTrue(s) + 1
    decreases |s|
  {
    var t := s[d := true];
    if d < |s| - 1 {
      assert t[..|t| - 1] == s[..|s| - 1][d := true];
      CountTrueSet(s[..|s| - 1], d);
    } else {
      assert t[..|t| - 1] == s[..|s| - 1];
    }
  }

  lemma {:induction false} SumOfUpdate(board: seq<Cell>, i: int, x: Cell, f: Cell -> nat)
    requires 0 <= i < |board|
    ensures SumOf(board[i := x], f) + f(board[i]) == SumOf(board, f) + f(x)
    decreases |board|
  {
    var b := board[i := x];
    if i < |board| - 1 {
      assert b[..|b| - 1] == board[..|board| - 1][i := x];
      SumOfUpdate(board[..|board| - 1], i, x, f);
    } else {
      assert b[..|b| - 1] == board[..|board| - 1];
    }
  }
}

=== FILE: inventory.dfy ===
/**
 * The bag (`InventoryManager`, `InventorySlot`): a fixed array of slots,
 * each holding at most one item and showing its icon while it does.
 * Items are an opaque type; the icon sprite itself is not modelled, only
 * whether the icon image is enabled.
 */
module Inventory {
  import opened Wrappers

  /** One slot: the item it holds, if any, and whether its icon image is enabled. */
  datatype Slot<T> = Slot(item: Option<T>, iconEnabled: bool)

  /** A slot shows its icon exactly when it holds an item. */
  predicate Consistent<T>(s: Slot<T>) {
    s.iconEnabled <==> s.item.Some?
  }

  /** `GetItem`: the held item, or `None` for an empty slot. */
  function GetItem<T>(s: Slot<T>): Option<T> {
    s.item
  }

  /** `AddItem`: stores `x`, replacing whatever the slot held, and enables the icon. */
  function AddItem<T>(s: Slot<T>, x: T): (r: Slot<T>)
    ensures GetItem(r) == Some(x) && Consistent(r)
  {
    Slot(Some(x), true)
  }

  /** `ClearSlot`: empties the slot and disables the icon. */
  function ClearSlot<T>(s: Slot<T>): (r: Slot<T>)
    ensures GetItem(r) == None && Consistent(r)
  {
    Slot(None, false)
  }

  /** The number of slots holding an item. */
  function Occupied<T>(bag: seq<Slot<T>>): nat {
    if |bag| == 0 then 0
    else Occupied(bag[..|bag| - 1]) + (if bag[|bag| - 1].item.Some? then 1 else 0)
  }

  /** `k` is the lowest-indexed empty slot of `bag`. */
  predicate FirstEmpty<T>(bag: seq<Slot<T>>, k: int) {
    && 0 <= k < |bag| && bag[k].item.None?
    && forall i :: 0 <= i < k ==> bag[i].item.Some?
  }

  /** Filling an empty slot adds one to the occupied count. */
  lemma {:induction false} OccupiedFill<T>(bag: seq<Slot<T>>, k: int, x: T)
    requires 0 <= k < |bag| && bag[k].item.None?
    ensures Occupied(bag[k := AddItem(bag[k], x)]) == Occupied(bag) + 1
  {
    var bag' := bag[k := AddItem(bag[k], x)];
    var n := |bag| - 1;
    if k == n {
      assert bag'[..n] == bag[..n];
    } else {
      assert bag'[..n] == bag[..n][k := AddItem(bag[k], x)];
      OccupiedFill(bag[..n], k, x);
    }
  }

  /**
   * `AddItemToBag`: puts `x` into the first empty slot and reports
   * whether there was one. A full bag is left as it is.
   */
  method AddItemToBag<T>(bag: seq<Slot<T>>, x: T) returns (bag': seq<Slot<T>>, added: bool)
    ensures added <==> exists i :: 0 <= i < |bag| && bag[i].item.None?
    ensures added ==> exists k :: FirstEmpty(bag, k) && bag' == bag[k := AddItem(bag[k], x)]
    ensures !added ==> bag' == bag
    ensures |bag'| == |bag|
    ensures Occupied(bag') == Occupied(bag) + (if added then 1 else 0)
    ensures (forall i :: 0 <= i < |bag| ==> Consistent(bag[i])) ==> forall i :: 0 <= i < |bag'| ==> Consistent(bag'[i])
  {
    var i := 0;
    while i < |bag|
      invariant 0 <= i <= |bag|
      invariant forall j :: 0 <= j < i ==> bag[j].item.Some?
    {
      if GetItem(bag[i]).None? {
        bag' := bag[i := AddItem(bag[i], x)];
        assert FirstEmpty(bag, i);
        OccupiedFill(bag, i, x);
        return bag', true;
      }
      i := i + 1;
    }
    return bag, false;
  }
}

=== FILE: inventory_input.dfy ===
/**
 * The bag's keyboard handler (`InventoryInputHandler`): a selection cursor
 * over the bag slots, moved by the number keys and the arrow keys, and a
 * drop request for the selected slot. The handler never changes the bag
 * itself; a drop is reported as a request naming the slot.
 */
module InventoryInput {
  import opened Wrappers
  import opened Inventory
  import Grid

  /** What a key press produces besides the new selection. */
  datatype Effect =
    | NoEffect
      /** Ask the manager to drop the item in this slot. */
    | DropRequest(slot: int)
      /** The handler indexed the slot array out of range. */
    | IndexFault

  /** The selection after a key press and the press's effect. */
  datatype Handled = Handled(selected: int, effect: Effect)

  /** `SelectSlot`: moves the cursor to `k` when `k` names a slot, and otherwise leaves it. */
  function SelectSlot(selected: int, slotCount: int, k: int): (r: int)
    ensures 0 <= k < slotCount ==> r == k
    ensures !(0 <= k < slotCount) ==> r == selected
    ensures 0 <= selected < slotCount ==> 0 <= r < slotCount
  {
    if 0 <= k < slotCount then k else selected
  }

  /**
   * `NavigateSlot`: moves the cursor by `direction`, wrapping once past
   * either end, then reads the selected slot, which faults exactly when
   * the bag has no slots.
   */
  function NavigateSlot(selected: int, slotCount: nat, direction: int): (r: Handled)
    ensures r.effect == IndexFault <==> slotCount == 0
    ensures r.effect != IndexFault ==> r.effect == NoEffect && 0 <= r.selected < slotCount
  {
    var moved := selected + direction;
    var wrapped := if moved < 0 then slotCount - 1 else if moved >= slotCount then 0 else moved;
    Handled(wrapped, if 0 <= wrapped < slotCount then NoEffect else IndexFault)
  }

  /** A single step left or right from a slot is a step modulo the number of slots. */
  lemma NavigateIsModular(selected: int, slotCount: nat, direction: int)
    requires 0 <= selected < slotCount && (direction == 1 || direction == -1)
    ensures NavigateSlot(selected, slotCount, direction).selected == (selected + direction) % slotCount
  {
    var m := selected + direction;
    if m < 0 {
      Grid.DivModOf(slotCount, -1, slotCount - 1);
    } else if m >= slotCount {
      Grid.DivModOf(slotCount, 1, 0);
    } else {
      Grid.DivModOf(slotCount, 0, m);
    }
  }

  /** `DropFromCurrentSlot`: asks for a drop only when the selected slot holds an item. */
  function DropFromCurrentSlot<T>(bag: seq<Slot<T>>, selected: int): (r: Effect)
    ensures r == IndexFault <==> !(0 <= selected < |bag|)
    ensures r.DropRequest? <==> 0 <= selected < |bag| && GetItem(bag[selected]).Some?
    ensures r.DropRequest? ==> r.slot == selected
  {
    if !(0 <= selected < |bag|) then IndexFault
    else if GetItem(bag[selected]).Some? then DropRequest(selected)
    else NoEffect
  }

  /** The control names the handler reacts to. */
  const Keys: set<string> := {"1", "2", "3", "leftArrow", "rightArrow", "q", "delete"}

  /**
   * `OnInventoryInput`: dispatches one key press. Without an inventory
   * manager every key is ignored.
   */
  function OnInventoryInput<T>(manager: Option<seq<Slot<T>>>, selected: int, key: string): (r: Handled)
    ensures manager.None? || key !in Keys ==> r == Handled(selected, NoEffect)
    ensures manager.Some? && key in {"1", "2", "3"} ==> r.effect == NoEffect
    ensures manager.Some? && key == "1" ==> r.selected == if |manager.value| >= 1 then 0 else selected
    ensures manager.Some? && key == "2" ==> r.selected == if |manager.value| >= 2 then 1 else selected
    ensures manager.Some? && key == "3" ==> r.selected == if |manager.value| >= 3 then 2 else selected
    ensures manager.Some? && key in {"leftArrow", "rightArrow"} ==> (r.effect != IndexFault <==> |manager.value| > 0)
    ensures manager.Some? && key == "leftArrow" && 0 <= selected < |manager.value| ==>
      r.selected == (selected - 1) % |manager.value|
    ensures manager.Some? && key == "rightArrow" && 0 <= selected < |manager.value| ==>
      r.selected == (selected + 1) % |manager.value|
    ensures manager.Some? && key in {"q", "delete"} ==>
      r.selected == selected && (r.effect == IndexFault <==> !(0 <= selected < |manager.value|))
    ensures r.effect.DropRequest? <==>
      (manager.Some? && key in {"q", "delete"} && 0 <= selected < |manager.value| && GetItem(manager.value[selected]).Some?)
    ensures r.effect.DropRequest? ==> r.effect.slot == selected == r.selected
  {
    match manager
    case None => Handled(selected, NoEffect)
    case Some(bag) =>
      if key == "1" then Handled(SelectSlot(selected, |bag|, 0), NoEffect)
      else if key == "2" then Handled(SelectSlot(selected, |bag|, 1), NoEffect)
      else if key == "3" then Handled(SelectSlot(selected, |bag|, 2), NoEffect)
      else if key == "leftArrow" then
        if 0 <= selected < |bag| then NavigateIsModular(selected, |bag|, -1); NavigateSlot(selected, |bag|, -1)
        else NavigateSlot(selected, |bag|, -1)
      else if key == "rightArrow" then
        if 0 <= selected < |bag| then NavigateIsModular(selected, |bag|, 1); NavigateSlot(selected, |bag|, 1)
        else NavigateSlot(selected, |bag|, 1)
      else if key == "q" || key == "delete" then Handled(selected, DropFromCurrentSlot(bag, selected))
      else Handled(selected, NoEffect)
  }

  /** The selection after a sequence of key presses, and the effect of each press in order. */
  function Replay<T>(manager: Option<seq<Slot<T>>>, selected: int, keys: seq<string>): (int, seq<Effect>)
    decreases |keys|
  {
    if |keys| == 0 then (selected, [])
    else
      var h := OnInventoryInput(manager, selected, keys[0]);
      var rest := Replay(manager, h.selected, keys[1..]);
      (rest.0, [h.effect] + rest.1)
  }

  /**
   * Starting on a slot of a non-empty bag, no sequence of key presses moves
   * the cursor off the bag or faults, and every drop request names a slot
   * that holds an item.
   */
  lemma {:induction false} ReplayStaysOnBag<T>(bag: seq<Slot<T>>, selected: int, keys: seq<string>)
    requires 0 <= selected < |bag|
    ensures 0 <= Replay(Some(bag), selected, keys).0 < |bag|
    ensures |Replay(Some(bag), selected, keys).1| == |keys|
    ensures forall e :: e in Replay(Some(bag), selected, keys).1 ==>
      e != IndexFault && (e.DropRequest? ==> 0 <= e.slot < |bag| && GetItem(bag[e.slot]).Some?)
    decreases |keys|
  {
    if |keys| > 0 {
      var h := OnInventoryInput(Some(bag), selected, keys[0]);
      assert 0 <= h.selected < |bag| && h.effect != IndexFault;
      ReplayStaysOnBag(bag, h.selected, keys[1..]);
    }
  }
}

=== FILE: layout.dfy ===
/**
 * The emission pass (`GenerateDungeon`): after the walk, every visited
 * cell becomes one room, placed at the cell's grid coordinates and given
 * the cell's four door bits unchanged. Unvisited cells emit nothing. The
 * pass runs column by column (outer loop over `x`, inner over `y`) and
 * reads cell `x + y * width`.
 */
module Layout {
  import opened Grid

  /** One emitted room: its grid column and row and the door bits handed to it. */
  datatype Placement = Placement(x: int, y: int, status: seq<bool>)

  /** The cell at column `x`, row `y`. */
  function CellAt(size: Size, board: seq<Cell>, x: int, y: int): (r: Cell)
    requires WellFormed(size, board) && 0 <= x < size.width && 0 <= y < size.height
    ensures 0 <= Index(size, x, y) < |board| && r == board[Index(size, x, y)] && |r.status| == Sides
  {
    IndexCoords(size, x, y);
    board[Index(size, x, y)]
  }

  /** Emission order: by column, then by row. */
  predicate Before(p: Placement, q: Placement) {
    p.x < q.x || (p.x == q.x && p.y < q.y)
  }

  method GenerateDungeon(size: Size, board: seq<Cell>) returns (rooms: seq<Placement>)
    requires WellFormed(size, board)
    ensures forall k :: 0 <= k < |rooms| ==>
      && 0 <= rooms[k].x < size.width && 0 <= rooms[k].y < size.height
      && CellAt(size, board, rooms[k].x, rooms[k].y).visited
      && rooms[k].status == CellAt(size, board, rooms[k].x, rooms[k].y).status
    ensures forall x, y :: 0 <= x < size.width && 0 <= y < size.height && CellAt(size, board, x, y).visited ==>
      Placement(x, y, CellAt(size, board, x, y).status) in rooms
    ensures forall k, l :: 0 <= k < l < |rooms| ==> Before(rooms[k], rooms[l])
    ensures |rooms| <= size.Count()
  {
    rooms := [];
    var i := 0;
    while i < size.width
      invariant 0 <= i <= size.width
      invariant forall k :: 0 <= k < |rooms| ==>
        && 0 <= rooms[k].x < i && 0 <= rooms[k].y < size.height
        && CellAt(size, board, rooms[k].x, rooms[k].y).visited
        && rooms[k].status == CellAt(size, board, rooms[k].x, rooms[k].y).status
      invariant forall x, y :: 0 <= x < i && 0 <= y < size.height && CellAt(size, board, x, y).visited ==>
        Placement(x, y, CellAt(size, board, x, y).status) in rooms
      invariant forall k, l :: 0 <= k < l < |rooms| ==> Before(rooms[k], rooms[l])
      invariant |rooms| <= i * size.height
    {
      var j := 0;
      while j < size.height
        invariant 0 <= j <= size.height
        invariant forall k :: 0 <= k < |rooms| ==>
          && 0 <= rooms[k].y < size.height
          && (0 <= rooms[k].x < i || (rooms[k].x == i && rooms[k].y < j))
          && CellAt(size, board, rooms[k].x, rooms[k].y).visited
          && rooms[k].status == CellAt(size, board, rooms[k].x, rooms[k].y).status
        invariant forall x, y ::
          (0 <= y < size.height && (0 <= x < i || (x == i && 0 <= y < j)) && CellAt(size, board, x, y).visited) ==>
          Placement(x, y, CellAt(size, board, x, y).status) in rooms
        invariant forall k, l :: 0 <= k < l < |rooms| ==> Before(rooms[k], rooms[l])
        invariant |rooms| <= i * size.height + j
      {
        IndexCoords(size, i, j);
        var cell := board[i + j * size.width];
        if cell.visited {
          rooms := rooms + [Placement(i, j, cell.status)];
        }
        j := j + 1;
      }
      assert (i + 1) * size.height == i * size.height + size.height;
      i := i + 1;
    }
  }
}

=== FILE: maze.dfy ===
/**
 * The randomized depth-first walk that carves a spanning tree over the
 * board (`MazeGenerator`). The walk keeps an explicit backtrack stack and
 * stops after at most `MaxSteps` iterations, when it stands on the last
 * cell of the board, or when it is stuck with an empty stack.
 *
 * `Random.Range(0, n)` is an injected oracle `pick(k, n)`, where `k` is the
 * number of the iteration that draws (each iteration draws at most once),
 * so a run is determined by the board size, the start index and the
 * oracle's answers. `Iterate` and `Walked` are the reference semantics of
 * one iteration and of the whole loop; the method `MazeGenerator` is the
 * loop itself and is proved to compute `Walked`.
 */
module Maze {
  import opened Grid
  import opened Choice

  /** The hard ceiling on loop iterations. */
  const MaxSteps: nat := 1000

  /** The walk's state: the board, the current index, the backtrack stack (top last) and the step counter. */
  datatype Walk = Walk(board: seq<Cell>, current: int, path: seq<int>, steps: nat)

  /** Why the walk stopped. */
  datatype Exit = ReachedLast | Stuck | Exhausted

  datatype Outcome = Continue(next: Walk) | Halt(last: Walk, exit: Exit) {
    /** The state after the iteration, whether or not the loop goes on. */
    function After(): Walk {
      if Continue? then next else last
    }
  }

  /** The board is well formed and every index the walk holds is on it. */
  predicate Sane(size: Size, w: Walk) {
    && WellFormed(size, w.board)
    && 0 <= w.current < |w.board|
    && forall i :: 0 <= i < |w.path| ==> 0 <= w.path[i] < |w.board|
  }

  function Initial(size: Size, start: int): Walk
    requires size.Valid()
  {
    Walk(BlankBoard(size), start, [], 0)
  }

  function Visit(board: seq<Cell>, c: int): seq<Cell>
    requires 0 <= c < |board|
  {
    board[c := board[c].(visited := true)]
  }

  function SetSide(cell: Cell, d: nat): Cell
    requires d < |cell.status|
  {
    cell.(status := cell.status[d := true])
  }

  /** Opens the door pair of a move from `a` to `b` on both cells. */
  function Open(board: seq<Cell>, a: int, b: int): seq<Cell>
    requires 0 <= a < |board| && 0 <= b < |board|
    requires |board[a].status| == Sides && |board[b].status| == Sides
  {
    var bits := MoveBits(a, b);
    var first := board[a := SetSide(board[a], bits.0)];
    first[b := SetSide(first[b], bits.1)]
  }

  lemma OpenWellFormed(size: Size, board: seq<Cell>, a: int, b: int)
    requires WellFormed(size, board) && 0 <= a < |board| && 0 <= b < |board|
    ensures WellFormed(size, Open(board, a, b))
  {
  }

  /**
   * The neighbour the oracle draws at iteration `k` among the scan's
   * results: an unvisited cell of the board that the scan returned.
   */
  function Draw(size: Size, board: seq<Cell>, cell: int, k: nat, pick: (nat, nat) -> nat): (next: int)
    requires size.Valid() && |board| == size.Count() && 0 <= cell < |board| && ValidOracle(pick)
    requires |CheckNeighbors(size, board, cell)| > 0
    ensures next in CheckNeighbors(size, board, cell)
    ensures 0 <= next < |board| && !board[next].visited
  {
    var neighbors := CheckNeighbors(size, board, cell);
    neighbors[pick(k, |neighbors|)]
  }

  /**
   * One iteration of the loop: count the step, mark the current cell
   * visited, stop on the last cell, then either move forward into an
   * unvisited neighbour chosen by the oracle or retreat along the stack.
   */
  function Iterate(size: Size, w: Walk, pick: (nat, nat) -> nat): (r: Outcome)
    requires Sane(size, w) && ValidOracle(pick)
    ensures Sane(size, r.After()) && r.After().steps == w.steps + 1
  {
    var k := w.steps + 1;
    var board := Visit(w.board, w.current);
    assert |board| == size.Count();
    if w.current == |board| - 1 then
      Halt(Walk(board, w.current, w.path, k), ReachedLast)
    else
      var neighbors := CheckNeighbors(size, board, w.current);
      if |neighbors| == 0 then
        if |w.path| == 0 then
          Halt(Walk(board, w.current, w.path, k), Stuck)
        else
          Continue(Walk(board, w.path[|w.path| - 1], w.path[..|w.path| - 1], k))
      else
        var next := Draw(size, board, w.current, k, pick);
        OpenWellFormed(size, board, w.current, next);
        Continue(Walk(Open(board, w.current, next), next, w.path + [w.current], k))
  }

  /** The whole loop from state `w`: iterate until a halt or until `MaxSteps` steps are spent. */
  function Walked(size: Size, w: Walk, pick: (nat, nat) -> nat): (Walk, Exit)
    requires Sane(size, w) && ValidOracle(pick)
    decreases MaxSteps - w.steps
  {
    if w.steps >= MaxSteps then (w, Exhausted)
    else
      match Iterate(size, w, pick)
      case Continue(next) => Walked(size, next, pick)
      case Halt(last, exit) => (last, exit)
  }

  // ---------------------------------------------------------------------
  // The walk's invariant
  // ---------------------------------------------------------------------

  /** Every index on the backtrack stack is a visited cell. */
  predicate StackVisited(size: Size, w: Walk)
    requires Sane(size, w)
  {
    forall i :: 0 <= i < |w.path| ==> w.board[w.path[i]].visited
  }

  /** A cell the walk has not reached (unvisited, and not the current cell) has every side closed. */
  predicate ClosedUnlessReached(size: Size, w: Walk)
    requires Sane(size, w)
  {
    forall c, d :: 0 <= c < |w.board| && c != w.current && !w.board[c].visited && 0 <= d < Sides ==>
      !w.board[c].status[d]
  }

  /**
   * Side `d` of cell `c` leads to a cell on the board that is a grid
   * neighbour of `c` and has the opposite side open; on a board at least
   * two columns wide that neighbour lies in direction `d`.
   */
  predicate Linked(size: Size, board: seq<Cell>, c: int, d: nat)
    requires WellFormed(size, board) && 0 <= c < |board| && d < Sides
  {
    var p := Partner(size, c, d);
    && 0 <= p < |board|
    && Adjacent(size, c, p)
    && board[p].status[Opp(d)]
    && (size.width >= 2 ==> GeoDir(size, c, p) == d)
  }

  /** Every open side is linked: door bits come in mirrored pairs between grid neighbours. */
  predicate DoorsLinked(size: Size, board: seq<Cell>)
    requires WellFormed(size, board)
  {
    forall c, d :: 0 <= c < |board| && 0 <= d < Sides && board[c].status[d] ==> Linked(size, board, c, d)
  }

  /** The cells the walk has reached: the visited ones plus the current cell. */
  function ReachedCount(size: Size, w: Walk): nat
    requires Sane(size, w)
  {
    VisitedCount(w.board) + (if w.board[w.current].visited then 0 else 1)
  }

  predicate Inv(size: Size, w: Walk) {
    && Sane(size, w)
    && w.steps <= MaxSteps
    && StackVisited(size, w)
    && ClosedUnlessReached(size, w)
    && DoorsLinked(size, w.board)
    && OpenBits(w.board) == 2 * (ReachedCount(size, w) - 1)
  }

  lemma {:induction false} SumOfBlank(board: seq<Cell>, f: Cell -> nat)
    requires forall c :: 0 <= c < |board| ==> board[c] == Blank()
    requires f(Blank()) == 0
    ensures SumOf(board, f) == 0
    decreases |board|
  {
    if |board| > 0 {
      SumOfBlank(board[..|board| - 1], f);
    }
  }

  /**
   * Door symmetry as geometry states it: on a board at least two columns
   * wide, the side of `a` facing its neighbour `b` is open exactly when
   * the side of `b` facing `a` is.
   */
  lemma DoorsMirror(size: Size, board: seq<Cell>, a: int, b: int)
    requires WellFormed(size, board) && DoorsLinked(size, board) && size.width >= 2
    requires 0 <= a < |board| && 0 <= b < |board| && Adjacent(size, a, b)
    ensures GeoDir(size, a, b) < Sides && GeoDir(size, b, a) < Sides
    ensures board[a].status[GeoDir(size, a, b)] <==> board[b].status[GeoDir(size, b, a)]
  {
    AdjacentSymmetric(size, a, b);
    GeoDirOpposite(size, a, b);
    GeoDirOpposite(size, b, a);
    var d := GeoDir(size, a, b);
    var e := GeoDir(size, b, a);
    if board[a].status[d] {
      assert Linked(size, board, a, d);
      OneNeighbourPerSide(size, a, b, Partner(size, a, d));
    }
    if board[b].status[e] {
      assert Linked(size, board, b, e);
      OneNeighbourPerSide(size, b, a, Partner(size, b, e));
    }
  }

  /** An open side of a board whose doors are linked is linked. */
  lemma OpenSideLinked(size: Size, board: seq<Cell>, c: int, d: nat)
    requires WellFormed(size, board) && DoorsLinked(size, board) && 0 <= c < |board| && d < Sides
    ensures board[c].status[d] ==> Linked(size, board, c, d)
  {
  }

  lemma InitialInv(size: Size, start: int)
    requires size.Valid() && 0 <= start < size.Count()
    ensures Inv(size, Initial(size, start))
  {
    var board := BlankBoard(size);
    CountTrueNone(Blank().status);
    SumOfBlank(board, OpenSides);
    SumOfBlank(board, VisitedMark);
  }

  lemma VisitKeeps(size: Size, w: Walk)
    requires Inv(size, w)
    ensures Inv(size, w.(board := Visit(w.board, w.current)))
    ensures Visit(w.board, w.current)[w.current].visited
  {
    var b := Visit(w.board, w.current);
    var w' := w.(board := b);
    SumOfUpdate(w.board, w.current, b[w.current], OpenSides);
    SumOfUpdate(w.board, w.current, b[w.current], VisitedMark);
    assert forall c :: 0 <= c < |b| ==> b[c].status == w.board[c].status;
    assert forall c, d :: 0 <= c < |b| && 0 <= d < Sides ==>
      (Linked(size, b, c, d) <==> Linked(size, w.board, c, d));
  }

  lemma BacktrackKeeps(size: Size, w: Walk, k: nat)
    requires Inv(size, w) && w.board[w.current].visited && |w.path| > 0 && k <= MaxSteps
    ensures Inv(size, Walk(w.board, w.path[|w.path| - 1], w.path[..|w.path| - 1], k))
  {
  }

  lemma {:induction false} CountTrueNone(s: seq<bool>)
    requires forall i :: 0 <= i < |s| ==> !s[i]
    ensures CountTrue(s) == 0
    decreases |s|
  {
    if |s| > 0 {
      CountTrueNone(s[..|s| - 1]);
    }
  }

  /** Opening a fresh door pair adds two open sides and changes no visited flag. */
  lemma OpenCounts(size: Size, board: seq<Cell>, a: int, b: int)
    requires WellFormed(size, board) && 0 <= a < |board| && 0 <= b < |board| && a != b
    requires !board[a].status[MoveBits(a, b).0] && !board[b].status[MoveBits(a, b).1]
    ensures OpenBits(Open(board, a, b)) == OpenBits(board) + 2
    ensures VisitedCount(Open(board, a, b)) == VisitedCount(board)
  {
    var f, s := MoveBits(a, b).0, MoveBits(a, b).1;
    var b1 := board[a := SetSide(board[a], f)];
    var b2 := b1[b := SetSide(b1[b], s)];
    assert b2 == Open(board, a, b);
    assert OpenBits(b2) == OpenBits(board) + 2 by {
      CountTrueSet(board[a].status, f);
      SumOfUpdate(board, a, b1[a], OpenSides);
      CountTrueSet(b1[b].status, s);
      SumOfUpdate(b1, b, b2[b], OpenSides);
    }
    assert VisitedCount(b2) == VisitedCount(board) by {
      SumOfUpdate(board, a, b1[a], VisitedMark);
      SumOfUpdate(b1, b, b2[b], VisitedMark);
    }
  }

  /** Sides only ever open: every side open on `board` is open on `board'`. */
  predicate Grows(board: seq<Cell>, board': seq<Cell>) {
    && |board'| == |board|
    && (forall c :: 0 <= c < |board| ==> |board'[c].status| == |board[c].status|)
    && (forall c, d :: 0 <= c < |board| && 0 <= d < |board[c].status| && board[c].status[d] ==>
          d < |board'[c].status| && board'[c].status[d])
  }

  lemma LinkedGrows(size: Size, board: seq<Cell>, board': seq<Cell>, c: int, d: nat)
    requires WellFormed(size, board) && WellFormed(size, board') && Grows(board, board')
    requires 0 <= c < |board| && d < Sides && Linked(size, board, c, d)
    ensures Linked(size, board', c, d)
  {
    var p := Partner(size, c, d);
    assert board[p].status[Opp(d)];
  }

  lemma OpenGrows(size: Size, board: seq<Cell>, a: int, b: int)
    requires WellFormed(size, board) && 0 <= a < |board| && 0 <= b < |board|
    ensures WellFormed(size, Open(board, a, b)) && Grows(board, Open(board, a, b))
    ensures Open(board, a, b)[a].status[MoveBits(a, b).0]
    ensures Open(board, a, b)[b].status[MoveBits(a, b).1]
    ensures forall c, d :: 0 <= c < |board| && 0 <= d < Sides && Open(board, a, b)[c].status[d] ==>
      board[c].status[d] || (c == a && d == MoveBits(a, b).0) || (c == b && d == MoveBits(a, b).1)
  {
  }

  /** The two sides a move opens are linked to each other. */
  lemma OpenNewLinks(size: Size, board: seq<Cell>, a: int, b: int)
    requires WellFormed(size, board) && 0 <= a < |board| && 0 <= b < |board| && Adjacent(size, a, b)
    ensures WellFormed(size, Open(board, a, b))
    ensures Linked(size, Open(board, a, b), a, MoveBits(a, b).0)
    ensures Linked(size, Open(board, a, b), b, MoveBits(a, b).1)
  {
    var f, s := MoveBits(a, b).0, MoveBits(a, b).1;
    MoveBitsLink(size, a, b);
    AdjacentSymmetric(size, a, b);
    if size.width >= 2 {
      MoveBitsGeometry(size, a, b);
    }
    OpenGrows(size, board, a, b);
    assert Opp(s) == f;
  }

  /** After opening the pair between grid neighbours `a` and `b`, every open side is still linked. */
  lemma OpenLinked(size: Size, board: seq<Cell>, a: int, b: int)
    requires WellFormed(size, board) && DoorsLinked(size, board)
    requires 0 <= a < |board| && 0 <= b < |board| && Adjacent(size, a, b)
    ensures WellFormed(size, Open(board, a, b))
    ensures DoorsLinked(size, Open(board, a, b))
  {
    var b2 := Open(board, a, b);
    OpenGrows(size, board, a, b);
    OpenNewLinks(size, board, a, b);
    forall c, d | 0 <= c < |b2| && 0 <= d < Sides && b2[c].status[d]
      ensures Linked(size, b2, c, d)
    {
      if board[c].status[d] {
        LinkedGrows(size, board, b2, c, d);
      }
    }
  }

  lemma ForwardKeeps(size: Size, w: Walk, next: int, k: nat)
    requires Inv(size, w) && w.board[w.current].visited && k <= MaxSteps
    requires 0 <= next < |w.board| && Adjacent(size, w.current, next) && !w.board[next].visited
    ensures Inv(size, Walk(Open(w.board, w.current, next), next, w.path + [w.current], k))
  {
    var cur := w.current;
    var b0 := w.board;
    var f, s := MoveBits(cur, next).0, MoveBits(cur, next).1;
    MoveBitsLink(size, cur, next);
    // Both sides are fresh: `next` is closed, so `cur` cannot face it yet.
    assert !b0[next].status[s];
    OpenSideLinked(size, b0, cur, f);
    OpenCounts(size, b0, cur, next);
    OpenLinked(size, b0, cur, next);
    var b2 := Open(b0, cur, next);
    assert forall c :: 0 <= c < |b2| && c != cur && c != next ==> b2[c] == b0[c];
    assert forall c :: 0 <= c < |b2| ==> b2[c].visited == b0[c].visited;
  }

  // ---------------------------------------------------------------------
  // The invariant across iterations and runs
  // ---------------------------------------------------------------------

  /** Every iteration marks the current cell visited and never un-visits a cell. */
  lemma IterateVisits(size: Size, w: Walk, pick: (nat, nat) -> nat)
    requires Sane(size, w) && ValidOracle(pick)
    ensures var b := Iterate(size, w, pick).After().board;
      && |b| == |w.board|
      && b[w.current].visited
      && forall c :: 0 <= c < |b| && w.board[c].visited ==> b[c].visited
  {
    var board := Visit(w.board, w.current);
    var b := Iterate(size, w, pick).After().board;
    if w.current == |board| - 1 || |CheckNeighbors(size, board, w.current)| == 0 {
      assert b == board;
    } else {
      var next := Draw(size, board, w.current, w.steps + 1, pick);
      assert b == Open(board, w.current, next);
      assert forall c :: 0 <= c < |board| ==> b[c].visited == board[c].visited;
    }
  }

  lemma StepsKeep(size: Size, w: Walk, k: nat)
    requires Inv(size, w) && k <= MaxSteps
    ensures Inv(size, w.(steps := k))
  {
  }

  lemma IterateKeeps(size: Size, w: Walk, pick: (nat, nat) -> nat)
    requires Inv(size, w) && w.steps < MaxSteps && ValidOracle(pick)
    ensures Inv(size, Iterate(size, w, pick).After())
    ensures Iterate(size, w, pick).Halt? ==>
      Iterate(size, w, pick).last.board[Iterate(size, w, pick).last.current].visited
  {
    var r := Iterate(size, w, pick);
    var k := w.steps + 1;
    var v := w.(board := Visit(w.board, w.current));
    VisitKeeps(size, w);
    if w.current == |v.board| - 1 {
      assert r == Halt(v.(steps := k), ReachedLast);
      StepsKeep(size, v, k);
    } else {
      var neighbors := CheckNeighbors(size, v.board, w.current);
      if |neighbors| == 0 {
        if |w.path| == 0 {
          assert r == Halt(v.(steps := k), Stuck);
          StepsKeep(size, v, k);
        } else {
          assert r == Continue(Walk(v.board, w.path[|w.path| - 1], w.path[..|w.path| - 1], k));
          BacktrackKeeps(size, v, k);
        }
      } else {
        var next := Draw(size, v.board, w.current, k, pick);
        assert r == Continue(Walk(Open(v.board, w.current, next), next, w.path + [w.current], k));
        CheckNeighborsExact(size, v.board, w.current);
        ForwardKeeps(size, v, next, k);
      }
    }
  }

  /**
   * A run from a state satisfying the invariant ends in one: door bits stay
   * mirrored between grid neighbours, the stack holds visited cells, and
   * open pairs number one less than the reached cells. A halt leaves the
   * current cell visited; only the step limit can stop the walk after it
   * entered a cell it has not yet marked.
   */
  lemma {:induction false} WalkedKeeps(size: Size, w: Walk, pick: (nat, nat) -> nat)
    requires Inv(size, w) && ValidOracle(pick)
    ensures Inv(size, Walked(size, w, pick).0)
    ensures Walked(size, w, pick).1 != Exhausted ==>
      Walked(size, w, pick).0.board[Walked(size, w, pick).0.current].visited
    ensures Walked(size, w, pick).1 == Exhausted ==> Walked(size, w, pick).0.steps == MaxSteps
    ensures w.steps <= Walked(size, w, pick).0.steps
    ensures forall c :: 0 <= c < |w.board| && w.board[c].visited ==> Walked(size, w, pick).0.board[c].visited
    decreases MaxSteps - w.steps
  {
    if w.steps < MaxSteps {
      IterateKeeps(size, w, pick);
      IterateVisits(size, w, pick);
      match Iterate(size, w, pick)
      case Continue(next) =>
        WalkedKeeps(size, next, pick);
      case Halt(last, exit) =>
    }
  }

  /** The loop stops on the last cell exactly when it stands there, and a halt changes nothing but the visited mark. */
  lemma IterateStops(size: Size, w: Walk, pick: (nat, nat) -> nat)
    requires Sane(size, w) && ValidOracle(pick)
    ensures Iterate(size, w, pick).Halt? ==> Iterate(size, w, pick).exit != Exhausted
    ensures (Iterate(size, w, pick).Halt? && Iterate(size, w, pick).exit == ReachedLast) <==>
      w.current == |w.board| - 1
    ensures (Iterate(size, w, pick).Halt? && Iterate(size, w, pick).exit == Stuck) <==>
      && w.current != |w.board| - 1
      && |CheckNeighbors(size, Visit(w.board, w.current), w.current)| == 0
      && |w.path| == 0
    ensures Iterate(size, w, pick).Halt? ==>
      Iterate(size, w, pick).last == Walk(Visit(w.board, w.current), w.current, w.path, w.steps + 1)
  {
  }

  /** A run ends on the last cell when it reports so. */
  lemma {:induction false} WalkedEnds(size: Size, w: Walk, pick: (nat, nat) -> nat)
    requires Sane(size, w) && ValidOracle(pick)
    ensures Walked(size, w, pick).1 == ReachedLast ==>
      Walked(size, w, pick).0.current == |Walked(size, w, pick).0.board| - 1
    decreases MaxSteps - w.steps
  {
    if w.steps < MaxSteps {
      IterateStops(size, w, pick);
      match Iterate(size, w, pick)
      case Continue(next) =>
        WalkedEnds(size, next, pick);
      case Halt(last, exit) =>
    }
  }

  /**
   * A dead end with a non-empty stack retreats to the top of the stack, a
   * visited cell, and changes no door bit.
   */
  lemma IterateBacktrack(size: Size, w: Walk, pick: (nat, nat) -> nat)
    requires Inv(size, w) && ValidOracle(pick)
    requires w.current != |w.board| - 1
    requires |CheckNeighbors(size, Visit(w.board, w.current), w.current)| == 0 && |w.path| > 0
    ensures Iterate(size, w, pick).Continue?
    ensures Iterate(size, w, pick).next.current == w.path[|w.path| - 1]
    ensures Iterate(size, w, pick).next.path == w.path[..|w.path| - 1]
    ensures Iterate(size, w, pick).next.board[Iterate(size, w, pick).next.current].visited
    ensures forall c :: 0 <= c < |w.board| ==> Iterate(size, w, pick).next.board[c].status == w.board[c].status
  {
  }

  /** Opening a fresh pair changes exactly those two sides. */
  lemma OpenChanges(size: Size, board: seq<Cell>, a: int, b: int)
    requires WellFormed(size, board) && 0 <= a < |board| && 0 <= b < |board| && a != b
    ensures WellFormed(size, Open(board, a, b))
    ensures forall c, d :: 0 <= c < |board| && 0 <= d < Sides ==>
      (Open(board, a, b)[c].status[d] != board[c].status[d] <==>
        (c == a && d == MoveBits(a, b).0 && !board[a].status[d]) ||
        (c == b && d == MoveBits(a, b).1 && !board[b].status[d]))
  {
    OpenWellFormed(size, board, a, b);
  }

  /** Under the invariant, both sides a forward move opens were closed. */
  lemma ForwardFresh(size: Size, w: Walk, next: int)
    requires Inv(size, w) && w.board[w.current].visited
    requires 0 <= next < |w.board| && Adjacent(size, w.current, next) && !w.board[next].visited
    ensures !w.board[w.current].status[MoveBits(w.current, next).0]
    ensures !w.board[next].status[MoveBits(w.current, next).1]
  {
    var f := MoveBits(w.current, next).0;
    MoveBitsLink(size, w.current, next);
    OpenSideLinked(size, w.board, w.current, f);
  }

  /**
   * A forward move pushes the current cell and enters an unvisited grid
   * neighbour taken from the neighbour list.
   */
  lemma IterateForward(size: Size, w: Walk, pick: (nat, nat) -> nat)
    requires Sane(size, w) && ValidOracle(pick)
    requires w.current != |w.board| - 1
    requires |CheckNeighbors(size, Visit(w.board, w.current), w.current)| > 0
    ensures Iterate(size, w, pick).Continue?
    ensures var n := Iterate(size, w, pick).next;
      && n.path == w.path + [w.current]
      && n.current in CheckNeighbors(size, Visit(w.board, w.current), w.current)
      && !w.board[n.current].visited
      && Adjacent(size, w.current, n.current)
      && n.board == Open(Visit(w.board, w.current), w.current, n.current)
  {
    var v := Visit(w.board, w.current);
    var neighbors := CheckNeighbors(size, v, w.current);
    var next := Draw(size, v, w.current, w.steps + 1, pick);
    CheckNeighborsExact(size, v, w.current);
  }

  /**
   * The door bits of a forward move: exactly one mirrored pair of sides
   * opens, one on each of the two cells, so the open sides grow by two.
   */
  lemma IterateForwardBits(size: Size, w: Walk, pick: (nat, nat) -> nat)
    requires Inv(size, w) && ValidOracle(pick)
    requires w.current != |w.board| - 1
    requires |CheckNeighbors(size, Visit(w.board, w.current), w.current)| > 0
    ensures Iterate(size, w, pick).Continue?
    ensures var n := Iterate(size, w, pick).next;
      var (f, s) := MoveBits(w.current, n.current);
      && s == Opp(f) && f < Sides
      && (forall c, d :: 0 <= c < |w.board| && 0 <= d < Sides ==>
            (n.board[c].status[d] != w.board[c].status[d] <==> (c == w.current && d == f) || (c == n.current && d == s)))
    ensures OpenBits(Iterate(size, w, pick).next.board) == OpenBits(w.board) + 2
  {
    IterateForward(size, w, pick);
    var n := Iterate(size, w, pick).next;
    var v := Visit(w.board, w.current);
    MoveBitsLink(size, w.current, n.current);
    assert WellFormed(size, v) && !v[w.current].status[MoveBits(w.current, n.current).0]
        && !v[n.current].status[MoveBits(w.current, n.current).1] by {
      VisitKeeps(size, w);
      ForwardFresh(size, w.(board := v), n.current);
    }
    OpenMoveBits(size, v, w.current, n.current);
    assert OpenBits(v) == OpenBits(w.board) by {
      SumOfUpdate(w.board, w.current, v[w.current], OpenSides);
    }
    assert forall c :: 0 <= c < |w.board| ==> v[c].status == w.board[c].status;
  }

  /** Opening two closed facing sides changes exactly those two bits and adds two open sides. */
  lemma OpenMoveBits(size: Size, board: seq<Cell>, a: int, b: int)
    requires WellFormed(size, board) && 0 <= a < |board| && 0 <= b < |board| && a != b
    requires !board[a].status[MoveBits(a, b).0] && !board[b].status[MoveBits(a, b).1]
    ensures forall c, d :: 0 <= c < |board| && 0 <= d < Sides ==>
      (Open(board, a, b)[c].status[d] != board[c].status[d] <==>
        (c == a && d == MoveBits(a, b).0) || (c == b && d == MoveBits(a, b).1))
    ensures OpenBits(Open(board, a, b)) == OpenBits(board) + 2
  {
    OpenCounts(size, board, a, b);
    OpenChanges(size, board, a, b);
  }

  /** What every run from the blank board guarantees. */
  lemma RunFacts(size: Size, start: int, pick: (nat, nat) -> nat)
    requires size.Valid() && 0 <= start < size.Count() && ValidOracle(pick)
    ensures var (w, exit) := Walked(size, Initial(size, start), pick);
      && Inv(size, w)
      && 1 <= w.steps
      && w.board[start].visited
      && (exit == ReachedLast ==> w.current == |w.board| - 1)
      && (exit == Exhausted ==> w.steps == MaxSteps)
      && (exit != Exhausted ==> w.board[w.current].visited)
  {
    var w0 := Initial(size, start);
    InitialInv(size, start);
    IterateKeeps(size, w0, pick);
    IterateVisits(size, w0, pick);
    IterateStops(size, w0, pick);
    match Iterate(size, w0, pick)
    case Continue(next) =>
      WalkedKeeps(size, next, pick);
      WalkedEnds(size, next, pick);
    case Halt(last, exit) =>
  }

  // ---------------------------------------------------------------------
  // Connectivity: the open doors join every reached cell
  // ---------------------------------------------------------------------

  /** Cell `a` has side `d` open, and that side's index partner is `b`. */
  predicate DoorVia(size: Size, board: seq<Cell>, a: int, b: int, d: nat)
    requires WellFormed(size, board) && 0 <= a < |board| && d < Sides
  {
    board[a].status[d] && Partner(size, a, d) == b
  }

  /** An open door of cell `a` leads to cell `b`. */
  predicate Door(size: Size, board: seq<Cell>, a: int, b: int)
    requires WellFormed(size, board)
  {
    && 0 <= a < |board| && 0 <= b < |board|
    && (|| DoorVia(size, board, a, b, Up) || DoorVia(size, board, a, b, Down)
        || DoorVia(size, board, a, b, Right) || DoorVia(size, board, a, b, Left))
  }

  /** A walk through open doors: a non-empty list of board cells, each joined to the next by a door. */
  predicate DoorPath(size: Size, board: seq<Cell>, p: seq<int>)
    requires WellFormed(size, board)
  {
    && |p| >= 1
    && (forall i :: 0 <= i < |p| ==> 0 <= p[i] < |board|)
    && (forall i :: 0 <= i < |p| - 1 ==> Door(size, board, p[i], p[i + 1]))
  }

  /** Cell `b` can be reached from cell `a` through open doors. */
  ghost predicate Reach(size: Size, board: seq<Cell>, a: int, b: int)
    requires WellFormed(size, board)
  {
    exists p :: DoorPath(size, board, p) && p[0] == a && p[|p| - 1] == b
  }

  /** A cell the walk has reached: a visited one, or the current one. */
  predicate Reached(board: seq<Cell>, current: int, c: int)
    requires 0 <= c < |board|
  {
    board[c].visited || c == current
  }

  /** Any two reached cells are joined by a walk through open doors. */
  ghost predicate Connected(size: Size, board: seq<Cell>, current: int)
    requires WellFormed(size, board)
  {
    forall a, b :: 0 <= a < |board| && 0 <= b < |board| && Reached(board, current, a) && Reached(board, current, b) ==>
      Reach(size, board, a, b)
  }

  /** Every reached cell can be reached from the current cell through open doors. */
  ghost predicate Spans(size: Size, w: Walk)
    requires Sane(size, w)
  {
    forall c :: 0 <= c < |w.board| && Reached(w.board, w.current, c) ==> Reach(size, w.board, w.current, c)
  }

  lemma ReachSelf(size: Size, board: seq<Cell>, a: int)
    requires WellFormed(size, board) && 0 <= a < |board|
    ensures Reach(size, board, a, a)
  {
    assert DoorPath(size, board, [a]);
  }

  /** A door followed by a door path is a door path. */
  lemma ReachStep(size: Size, board: seq<Cell>, a: int, b: int, c: int)
    requires WellFormed(size, board) && Door(size, board, a, b) && Reach(size, board, b, c)
    ensures Reach(size, board, a, c)
  {
    var p :| DoorPath(size, board, p) && p[0] == b && p[|p| - 1] == c;
    var q := [a] + p;
    forall i | 0 <= i < |q| - 1
      ensures Door(size, board, q[i], q[i + 1])
    {
      if i > 0 {
        assert q[i] == p[i - 1] && q[i + 1] == p[i];
      }
    }
    assert DoorPath(size, board, q);
  }

  /** Door paths compose. */
  lemma ReachTrans(size: Size, board: seq<Cell>, a: int, b: int, c: int)
    requires WellFormed(size, board) && Reach(size, board, a, b) && Reach(size, board, b, c)
    ensures Reach(size, board, a, c)
  {
    var p :| DoorPath(size, board, p) && p[0] == a && p[|p| - 1] == b;
    var r :| DoorPath(size, board, r) && r[0] == b && r[|r| - 1] == c;
    var q := p + r[1..];
    forall i | 0 <= i < |q| - 1
      ensures Door(size, board, q[i], q[i + 1])
    {
      if i < |p| - 1 {
        assert q[i] == p[i] && q[i + 1] == p[i + 1];
      } else {
        var j := i - |p| + 1;
        assert q[i] == r[j] && q[i + 1] == r[j + 1];
      }
    }
    assert DoorPath(size, board, q);
  }

  /** Doors only open, so every door path stays a door path. */
  lemma ReachGrows(size: Size, board: seq<Cell>, board': seq<Cell>, a: int, b: int)
    requires WellFormed(size, board) && WellFormed(size, board') && Grows(board, board')
    requires Reach(size, board, a, b)
    ensures Reach(size, board', a, b)
  {
    var p :| DoorPath(size, board, p) && p[0] == a && p[|p| - 1] == b;
    forall i | 0 <= i < |p| - 1
      ensures Door(size, board', p[i], p[i + 1])
    {
      assert Door(size, board, p[i], p[i + 1]);
    }
    assert DoorPath(size, board', p);
  }

  /** With mirrored doors, every door can be walked back. */
  lemma DoorBack(size: Size, board: seq<Cell>, a: int, b: int)
    requires WellFormed(size, board) && DoorsLinked(size, board) && Door(size, board, a, b)
    ensures Door(size, board, b, a)
  {
    var d := if DoorVia(size, board, a, b, Up) then Up
      else if DoorVia(size, board, a, b, Down) then Down
      else if DoorVia(size, board, a, b, Right) then Right
      else Left;
    assert DoorVia(size, board, a, b, d);
    OpenSideLinked(size, board, a, d);
    assert DoorVia(size, board, b, a, Opp(d));
  }

  /** With mirrored doors, reachability is symmetric. */
  lemma {:induction false} ReachBack(size: Size, board: seq<Cell>, a: int, b: int)
    requires WellFormed(size, board) && DoorsLinked(size, board) && Reach(size, board, a, b)
    ensures Reach(size, board, b, a)
  {
    var p :| DoorPath(size, board, p) && p[0] == a && p[|p| - 1] == b;
    PathBack(size, board, p);
  }

  lemma {:induction false} PathBack(size: Size, board: seq<Cell>, p: seq<int>)
    requires WellFormed(size, board) && DoorsLinked(size, board) && DoorPath(size, board, p)
    ensures Reach(size, board, p[|p| - 1], p[0])
    decreases |p|
  {
    if |p| == 1 {
      ReachSelf(size, board, p[0]);
    } else {
      var t := p[1..];
      assert DoorPath(size, board, t) by {
        forall i | 0 <= i < |t| - 1
          ensures Door(size, board, t[i], t[i + 1])
        {
          assert t[i] == p[i + 1] && t[i + 1] == p[i + 2];
        }
      }
      PathBack(size, board, t);
      assert Door(size, board, p[0], p[1]);
      DoorBack(size, board, p[0], p[1]);
      ReachSelf(size, board, p[0]);
      ReachStep(size, board, p[1], p[0], p[0]);
      ReachTrans(size, board, p[|p| - 1], p[1], p[0]);
    }
  }

  lemma InitialSpans(size: Size, start: int)
    requires size.Valid() && 0 <= start < size.Count()
    ensures Inv(size, Initial(size, start)) && Spans(size, Initial(size, start))
  {
    InitialInv(size, start);
    ReachSelf(size, BlankBoard(size), start);
  }

  /** Marking the current cell visited keeps door paths and adds no reached cell. */
  lemma VisitSpans(size: Size, w: Walk)
    requires Inv(size, w) && Spans(size, w)
    ensures Sane(size, w.(board := Visit(w.board, w.current)))
    ensures Grows(w.board, Visit(w.board, w.current))
    ensures Spans(size, w.(board := Visit(w.board, w.current)))
  {
    var cur, v := w.current, Visit(w.board, w.current);
    assert forall c :: 0 <= c < |v| ==> v[c].status == w.board[c].status;
    forall c | 0 <= c < |v| && Reached(v, cur, c)
      ensures Reach(size, v, cur, c)
    {
      ReachGrows(size, w.board, v, cur, c);
    }
  }

  /** A retreat to the top of the stack walks back along doors to a visited cell. */
  lemma BacktrackSpans(size: Size, w: Walk, k: nat)
    requires Inv(size, w) && Spans(size, w) && w.board[w.current].visited && |w.path| > 0
    ensures Sane(size, Walk(w.board, w.path[|w.path| - 1], w.path[..|w.path| - 1], k))
    ensures Spans(size, Walk(w.board, w.path[|w.path| - 1], w.path[..|w.path| - 1], k))
  {
    var cur, t := w.current, w.path[|w.path| - 1];
    assert w.board[t].visited;
    ReachBack(size, w.board, cur, t);
    forall c | 0 <= c < |w.board| && Reached(w.board, t, c)
      ensures Reach(size, w.board, t, c)
    {
      ReachTrans(size, w.board, t, cur, c);
    }
  }

  /** A forward move enters `next` through the door it has just opened. */
  lemma ForwardSpans(size: Size, w: Walk, next: int, k: nat)
    requires Inv(size, w) && Spans(size, w)
    requires 0 <= next < |w.board| && Adjacent(size, w.current, next)
    ensures Sane(size, Walk(Open(w.board, w.current, next), next, w.path + [w.current], k))
    ensures Spans(size, Walk(Open(w.board, w.current, next), next, w.path + [w.current], k))
  {
    var cur := w.current;
    var b2 := Open(w.board, cur, next);
    OpenGrows(size, w.board, cur, next);
    MoveBitsLink(size, cur, next);
    assert Door(size, b2, next, cur) by {
      assert DoorVia(size, b2, next, cur, MoveBits(cur, next).1);
    }
    forall c | 0 <= c < |b2| && Reached(b2, next, c)
      ensures Reach(size, b2, next, c)
    {
      if c == next {
        ReachSelf(size, b2, next);
      } else {
        assert Reached(w.board, cur, c);
        ReachGrows(size, w.board, b2, cur, c);
        ReachStep(size, b2, next, cur, c);
      }
    }
  }

  /**
   * Every iteration keeps every reached cell reachable from the current
   * one: a halt only marks the current cell, a retreat goes back along
   * doors to a visited cell, and a forward move enters through the door
   * it has just opened.
   */
  lemma IterateSpans(size: Size, w: Walk, pick: (nat, nat) -> nat)
    requires Inv(size, w) && Spans(size, w) && ValidOracle(pick)
    ensures Spans(size, Iterate(size, w, pick).After())
  {
    var r := Iterate(size, w, pick);
    var k, cur := w.steps + 1, w.current;
    var v := Visit(w.board, cur);
    var vw := w.(board := v);
    VisitKeeps(size, w);
    VisitSpans(size, w);
    if cur == |v| - 1 || (|CheckNeighbors(size, v, cur)| == 0 && |w.path| == 0) {
      assert r.After() == vw.(steps := k);
    } else if |CheckNeighbors(size, v, cur)| == 0 {
      assert r.After() == Walk(v, w.path[|w.path| - 1], w.path[..|w.path| - 1], k);
      BacktrackSpans(size, vw, k);
    } else {
      IterateForward(size, w, pick);
      assert r.After() == Walk(Open(v, cur, r.next.current), r.next.current, w.path + [cur], k);
      ForwardSpans(size, vw, r.next.current, k);
    }
  }

  /** A whole run keeps every reached cell reachable from the current one. */
  lemma {:induction false} WalkedSpans(size: Size, w: Walk, pick: (nat, nat) -> nat)
    requires Inv(size, w) && Spans(size, w) && ValidOracle(pick)
    ensures Inv(size, Walked(size, w, pick).0) && Spans(size, Walked(size, w, pick).0)
    decreases MaxSteps - w.steps
  {
    WalkedKeeps(size, w, pick);
    if w.steps < MaxSteps {
      IterateKeeps(size, w, pick);
      IterateSpans(size, w, pick);
      match Iterate(size, w, pick)
      case Continue(next) =>
        WalkedSpans(size, next, pick);
      case Halt(last, exit) =>
    }
  }

  /** Under the invariant, any two reached cells are joined by open doors. */
  lemma SpansConnected(size: Size, w: Walk)
    requires Inv(size, w) && Spans(size, w)
    ensures Connected(size, w.board, w.current)
  {
    forall a, b | 0 <= a < |w.board| && 0 <= b < |w.board| && Reached(w.board, w.current, a) && Reached(w.board, w.current, b)
      ensures Reach(size, w.board, a, b)
    {
      ReachBack(size, w.board, w.current, a);
      ReachTrans(size, w.board, a, w.current, b);
    }
  }

  /**
   * Every run from the blank board joins all the cells it reached through
   * open doors. Together with the invariant's count of open sides (two per
   * door, one door fewer than reached cells) the doors form a spanning
   * tree of the reached cells.
   */
  lemma RunConnected(size: Size, start: int, pick: (nat, nat) -> nat)
    requires size.Valid() && 0 <= start < size.Count() && ValidOracle(pick)
    ensures var w := Walked(size, Initial(size, start), pick).0;
      && Inv(size, w)
      && Connected(size, w.board, w.current)
  {
    InitialSpans(size, start);
    WalkedSpans(size, Initial(size, start), pick);
    SpansConnected(size, Walked(size, Initial(size, start), pick).0);
  }

  // ---------------------------------------------------------------------
  // The generator loop
  // ---------------------------------------------------------------------

  /**
   * Opens the door pair of a forward move from `current` to `next`,
   * classifying the move by index difference: one more is right, one less
   * is left, any other larger index is down and any other smaller one up.
   */
  method CarvePassage(board: seq<Cell>, current: int, next: int) returns (board': seq<Cell>)
    requires 0 <= current < |board| && 0 <= next < |board| && current != next
    requires |board[current].status| == Sides && |board[next].status| == Sides
    ensures board' == Open(board, current, next)
    ensures |board'| == |board|
    ensures forall c :: 0 <= c < |board| && c != current && c != next ==> board'[c] == board[c]
    ensures forall c :: 0 <= c < |board| ==> board'[c].visited == board[c].visited
    ensures board'[current].status == board[current].status[MoveBits(current, next).0 := true]
    ensures board'[next].status == board[next].status[MoveBits(current, next).1 := true]
    ensures MoveBits(current, next).1 == Opp(MoveBits(current, next).0)
  {
    board' := board;
    var cell := current;
    if next > cell {
      if next - 1 == cell {
        board' := board'[cell := SetSide(board'[cell], Right)];
        cell := next;
        board' := board'[cell := SetSide(board'[cell], Left)];
      } else {
        board' := board'[cell := SetSide(board'[cell], Down)];
        cell := next;
        board' := board'[cell := SetSide(board'[cell], Up)];
      }
    } else {
      if next + 1 == cell {
        board' := board'[cell := SetSide(board'[cell], Left)];
        cell := next;
        board' := board'[cell := SetSide(board'[cell], Right)];
      } else {
        board' := board'[cell := SetSide(board'[cell], Up)];
        cell := next;
        board' := board'[cell := SetSide(board'[cell], Down)];
      }
    }
  }

  /**
   * One pass of the loop body from state `w`: mark the current cell,
   * stop on the last cell, otherwise scan, then backtrack, stop stuck or
   * carve forward. `halted` says whether the loop breaks; the new state
   * is exactly one `Iterate` step.
   */
  method WalkStep(size: Size, w: Walk, pick: (nat, nat) -> nat) returns (next: Walk, halted: bool, exit: Exit)
    requires Sane(size, w) && ValidOracle(pick)
    ensures Iterate(size, w, pick) == if halted then Halt(next, exit) else Continue(next)
  {
    var board, current, path, steps := w.board, w.current, w.path, w.steps + 1;
    board := board[current := board[current].(visited := true)];
    halted, exit := false, Exhausted;
    if current == |board| - 1 {
      halted, exit := true, ReachedLast;
    } else {
      var neighbors := CheckNeighbors(size, board, current);
      if |neighbors| == 0 {
        if |path| == 0 {
          halted, exit := true, Stuck;
        } else {
          current := path[|path| - 1];
          path := path[..|path| - 1];
        }
      } else {
        path := path + [current];
        var next := Draw(size, board, current, steps, pick);
        assert board[current].visited && |board[current].status| == |board[next].status| == Sides;
        board := CarvePassage(board, current, next);
        current := next;
      }
    }
    next := Walk(board, current, path, steps);
  }

  /**
   * The walk loop over a prepared board, from `start` with an empty stack:
   * it computes exactly the reference run `Walked`.
   */
  method WalkLoop(size: Size, board0: seq<Cell>, start: int, pick: (nat, nat) -> nat)
    returns (board: seq<Cell>, current: int, path: seq<int>, steps: nat, exit: Exit)
    requires Sane(size, Walk(board0, start, [], 0)) && ValidOracle(pick)
    ensures (Walk(board, current, path, steps), exit) == Walked(size, Walk(board0, start, [], 0), pick)
  {
    board, current, path, steps := board0, start, [], 0;
    exit := Exhausted;
    while steps < MaxSteps
      invariant Sane(size, Walk(board, current, path, steps))
      invariant Walked(size, Walk(board, current, path, steps), pick) == Walked(size, Walk(board0, start, [], 0), pick)
      invariant exit == Exhausted
      decreases MaxSteps - steps
    {
      var before := Walk(board, current, path, steps);
      var next, halted, e := WalkStep(size, before, pick);
      board, current, path, steps := next.board, next.current, next.path, next.steps;
      if halted {
        exit := e;
        assert Walked(size, before, pick) == (next, e);
        return;
      }
    }
  }

  /**
   * The generator as the source runs it: set up a blank board of `size`
   * and walk from `start` (the source does not validate `start`; callers
   * keep it on the board). It returns the finished board together with
   * the walk's final position, stack, step count and the reason it
   * stopped.
   */
  method MazeGenerator(size: Size, start: int, pick: (nat, nat) -> nat)
    returns (board: seq<Cell>, current: int, path: seq<int>, steps: nat, exit: Exit)
    requires size.Valid() && 0 <= start < size.width * size.height && ValidOracle(pick)
    ensures (Walk(board, current, path, steps), exit) == Walked(size, Initial(size, start), pick)
    ensures WellFormed(size, board) && |board| == size.width * size.height
    ensures 1 <= steps <= MaxSteps
    ensures 0 <= current < |board| && board[start].visited
    ensures exit == ReachedLast ==> current == |board| - 1
    ensures exit == Exhausted ==> steps == MaxSteps
    ensures exit != Exhausted ==> board[current].visited
    ensures forall i :: 0 <= i < |path| ==> 0 <= path[i] < |board| && board[path[i]].visited
    ensures DoorsLinked(size, board)
    ensures OpenBits(board) == 2 * (VisitedCount(board) + (if board[current].visited then 0 else 1) - 1)
    ensures exit != Exhausted ==> OpenBits(board) == 2 * (VisitedCount(board) - 1)
    ensures exit != Exhausted ==> forall c, d :: 0 <= c < |board| && 0 <= d < Sides && board[c].status[d] ==> board[c].visited
    ensures Connected(size, board, current)
  {
    var blank := NewBoard(size);
    board, current, path, steps, exit := WalkLoop(size, blank, start, pick);
    RunFacts(size, start, pick);
    RunConnected(size, start, pick);
  }
}

=== FILE: maze_scenarios.dfy ===
/**
 * Concrete runs of the walk: the straight corridor, the single cell, the
 * one-column board where a downward move is recorded on the right/left
 * sides, and a start cell whose neighbours are already visited.
 */
module MazeScenarios {
  import opened Grid
  import opened Maze
  import opened Choice

  /** A 3×1 board has one maze: a corridor, reached end to end in three iterations. */
  lemma Corridor(pick: (nat, nat) -> nat)
    requires ValidOracle(pick)
    ensures Walked(Size(3, 1), Initial(Size(3, 1), 0), pick) ==
      (Walk([Cell(true, [false, false, true, false]),
             Cell(true, [false, false, true, true]),
             Cell(true, [false, false, false, true])], 2, [0, 1], 3), ReachedLast)
  {
    var size := Size(3, 1);
    var w1 := CorridorFirst(pick);
    var w2 := CorridorSecond(pick);
    var last := Walk([Cell(true, [false, false, true, false]), Cell(true, [false, false, true, true]),
                      Cell(true, [false, false, false, true])], 2, [0, 1], 3);
    assert Visit(w2.board, 2) == last.board;
    assert Iterate(size, w2, pick) == Halt(last, ReachedLast);
    assert Walked(size, w2, pick) == (last, ReachedLast);
    assert Walked(size, w1, pick) == Walked(size, w2, pick);
  }

  /** The corridor's first iteration: from cell 0 the only neighbour is cell 1. */
  lemma CorridorFirst(pick: (nat, nat) -> nat) returns (w1: Walk)
    requires ValidOracle(pick)
    ensures w1 == Walk([Cell(true, [false, false, true, false]), Cell(false, [false, false, false, true]), Blank()], 1, [0], 1)
    ensures Iterate(Size(3, 1), Initial(Size(3, 1), 0), pick) == Continue(w1)
    ensures Walked(Size(3, 1), Initial(Size(3, 1), 0), pick) == Walked(Size(3, 1), w1, pick)
  {
    var size := Size(3, 1);
    var v0 := Visit(BlankBoard(size), 0);
    assert BlankBoard(size) == [Blank(), Blank(), Blank()];
    CheckNeighborsScan(size, v0, 0);
    assert CheckNeighbors(size, v0, 0) == [1];
    assert pick(1, 1) == 0;
    assert MoveBits(0, 1) == (Right, Left);
    var b1 := Open(v0, 0, 1);
    assert b1 == [Cell(true, [false, false, true, false]), Cell(false, [false, false, false, true]), Blank()] by {
      assert b1[0].status == [false, false, true, false];
      assert b1[1].status == [false, false, false, true];
    }
    w1 := Walk(b1, 1, [0], 1);
  }

  /** The corridor's second iteration: from cell 1, with cell 0 visited, the only neighbour is cell 2. */
  lemma CorridorSecond(pick: (nat, nat) -> nat) returns (w2: Walk)
    requires ValidOracle(pick)
    ensures w2 == Walk([Cell(true, [false, false, true, false]), Cell(true, [false, false, true, true]),
                        Cell(false, [false, false, false, true])], 2, [0, 1], 2)
    ensures var w1 := Walk([Cell(true, [false, false, true, false]), Cell(false, [false, false, false, true]), Blank()], 1, [0], 1);
      Iterate(Size(3, 1), w1, pick) == Continue(w2) && Walked(Size(3, 1), w1, pick) == Walked(Size(3, 1), w2, pick)
  {
    var size := Size(3, 1);
    var b1 := [Cell(true, [false, false, true, false]), Cell(false, [false, false, false, true]), Blank()];
    var v1 := Visit(b1, 1);
    CheckNeighborsScan(size, v1, 1);
    assert CheckNeighbors(size, v1, 1) == [2];
    assert pick(2, 1) == 0;
    assert MoveBits(1, 2) == (Right, Left);
    var b2 := Open(v1, 1, 2);
    assert b2 == [Cell(true, [false, false, true, false]), Cell(true, [false, false, true, true]),
                  Cell(false, [false, false, false, true])] by {
      assert b2[1].status == [false, false, true, true];
      assert b2[2].status == [false, false, false, true];
    }
    w2 := Walk(b2, 2, [0, 1], 2);
  }

  /** A 1×1 board: the start is the last cell, so the walk stops at once with no open side. */
  lemma SingleCell(pick: (nat, nat) -> nat)
    requires ValidOracle(pick)
    ensures Walked(Size(1, 1), Initial(Size(1, 1), 0), pick) ==
      (Walk([Cell(true, [false, false, false, false])], 0, [], 1), ReachedLast)
  {
    var size := Size(1, 1);
    assert BlankBoard(size) == [Blank()];
    assert Iterate(size, Initial(size, 0), pick) ==
      Halt(Walk([Cell(true, [false, false, false, false])], 0, [], 1), ReachedLast);
  }

  /**
   * A 1×2 board (one column, two rows): the only move is downward, and
   * because cell 1 is cell 0 plus one it is recorded on sides 2 (right)
   * and 3 (left), not 1 (down) and 0 (up).
   */
  lemma OneColumnDownMove(pick: (nat, nat) -> nat)
    requires ValidOracle(pick)
    ensures Walked(Size(1, 2), Initial(Size(1, 2), 0), pick) ==
      (Walk([Cell(true, [false, false, true, false]),
             Cell(true, [false, false, false, true])], 1, [0], 2), ReachedLast)
    ensures GeoDir(Size(1, 2), 0, 1) == Down
  {
    var size := Size(1, 2);
    var w0 := Initial(size, 0);
    assert BlankBoard(size) == [Blank(), Blank()];
    var v0 := Visit(BlankBoard(size), 0);
    CheckNeighborsScan(size, v0, 0);
    assert CheckNeighbors(size, v0, 0) == [1];
    assert pick(1, 1) == 0;
    assert MoveBits(0, 1) == (Right, Left);
    var b1 := Open(v0, 0, 1);
    assert b1 == [Cell(true, [false, false, true, false]), Cell(false, [false, false, false, true])] by {
      assert b1[0].status == [false, false, true, false];
      assert b1[1].status == [false, false, false, true];
    }
    var w1 := Walk(b1, 1, [0], 1);
    assert Iterate(size, w0, pick) == Continue(w1);
    var last := Walk(Visit(b1, 1), 1, [0], 2);
    assert Visit(b1, 1) == [Cell(true, [false, false, true, false]), Cell(true, [false, false, false, true])];
    assert Iterate(size, w1, pick) == Halt(last, ReachedLast);
    assert Walked(size, w1, pick) == (last, ReachedLast);
    assert Walked(size, w0, pick) == Walked(size, w1, pick);
    assert Row(size, 1) == 1 && Row(size, 0) == 0;
  }

  /** With every grid neighbour of the current cell visited, the scan finds nothing. */
  lemma NoNeighbors(size: Size, w: Walk)
    requires Sane(size, w)
    requires forall x :: 0 <= x < |w.board| && Adjacent(size, w.current, x) ==> w.board[x].visited
    ensures |CheckNeighbors(size, Visit(w.board, w.current), w.current)| == 0
  {
    var c, v := w.current, Visit(w.board, w.current);
    var right, left := (c + 1) % size.width != 0, c % size.width != 0;
    CheckNeighborsScan(size, v, c);
    forall x | 0 <= x < |v| && Beside(size.width, c, x, right, left)
      ensures v[x].visited
    {
      AdjacentByIndex(size, c, x);
    }
  }

  /**
   * A start cell whose neighbours are all visited already, with an empty
   * stack, ends the walk at once through the stuck path: only the start
   * cell's visited mark changes, every door bit stays as it was.
   */
  lemma StuckAtStart(size: Size, w: Walk, pick: (nat, nat) -> nat)
    requires Sane(size, w) && ValidOracle(pick) && w.steps < MaxSteps
    requires w.current != |w.board| - 1 && |w.path| == 0
    requires forall x :: 0 <= x < |w.board| && Adjacent(size, w.current, x) ==> w.board[x].visited
    ensures Walked(size, w, pick) == (Walk(Visit(w.board, w.current), w.current, [], w.steps + 1), Stuck)
    ensures forall c :: 0 <= c < |w.board| ==> Walked(size, w, pick).0.board[c].status == w.board[c].status
  {
    NoNeighbors(size, w);
    IterateStops(size, w, pick);
    assert Walked(size, w, pick) == (Iterate(size, w, pick).last, Stuck);
  }
}

=== FILE: populator.dfy ===
/**
 * The name-based room decorator (`DungeonPopulator`): for each room it
 * draws up to `maxObjectsPerRoom` random spawnables and puts each on a
 * random anchor whose name contains the keyword of the object's placement
 * kind. The anchors are all transforms under the room, in hierarchy order.
 */
module Populator {
  import opened Scene
  import opened Choice

  /** The anchor-name keyword of a placement kind; an undeclared kind has the empty keyword. */
  function Keyword(t: PlacementType): (r: string)
    ensures r == "" <==> t.Undeclared?
  {
    match t
    case Wall => "WallAnchor"
    case Center => "FloorCenter"
    case Corner => "CornerAnchor"
    case Undeclared(_) => ""
  }

  /** `s` contains `sub` at some offset, compared character by character (`string.Contains` is ordinal). */
  predicate Contains(s: string, sub: string)
    decreases |s|
  {
    if |sub| <= |s| && s[..|sub|] == sub then true
    else if |s| == 0 then false
    else Contains(s[1..], sub)
  }

  /** `sub` sits in `s` at offset `i`. */
  predicate At(s: string, sub: string, i: int) {
    0 <= i && i + |sub| <= |s| && s[i..i + |sub|] == sub
  }

  /** The independent definition: some window of `s` equals `sub`. */
  ghost predicate OccursIn(s: string, sub: string) {
    exists i :: At(s, sub, i)
  }

  lemma {:induction false} ContainsIsOccurrence(s: string, sub: string)
    ensures Contains(s, sub) <==> OccursIn(s, sub)
    decreases |s|
  {
    if |sub| <= |s| && s[..|sub|] == sub {
      assert At(s, sub, 0);
    } else if |s| == 0 {
      assert !At(s, sub, 0);
    } else {
      ContainsIsOccurrence(s[1..], sub);
      if OccursIn(s[1..], sub) {
        var i :| At(s[1..], sub, i);
        assert s[i + 1..i + 1 + |sub|] == s[1..][i..i + |sub|];
        assert At(s, sub, i + 1);
      }
      if OccursIn(s, sub) {
        var i :| At(s, sub, i);
        assert i != 0;
        assert s[1..][i - 1..i - 1 + |sub|] == s[i..i + |sub|];
        assert At(s[1..], sub, i - 1);
      }
    }
  }

  /** Every string contains the empty keyword. */
  lemma ContainsEmpty(s: string)
    ensures Contains(s, "")
  {
    assert s[..0] == "";
  }

  /** The anchors whose name contains `keyword`, in input order. */
  function Matching<H(!new)>(all: seq<Anchor<H>>, keyword: string): (r: seq<Anchor<H>>)
    ensures |r| <= |all|
  {
    if |all| == 0 then []
    else
      var rest := Matching(all[..|all| - 1], keyword);
      var last := all[|all| - 1];
      assert all == all[..|all| - 1] + [last];
      if Contains(last.name, keyword) then rest + [last] else rest
  }

  /** The filter keeps exactly the anchors whose name contains the keyword. */
  lemma {:induction false} MatchingMembers<H(!new)>(all: seq<Anchor<H>>, keyword: string)
    ensures forall a :: a in Matching(all, keyword) <==> a in all && Contains(a.name, keyword)
  {
    if |all| > 0 {
      var prefix := all[..|all| - 1];
      MatchingMembers(prefix, keyword);
      assert all == prefix + [all[|all| - 1]];
    }
  }

  /** `idx` picks out elements of a sequence of length `n` at strictly increasing positions. */
  predicate Ascending(idx: seq<int>, n: int) {
    (forall k :: 0 <= k < |idx| ==> 0 <= idx[k] < n) &&
    (forall k, l :: 0 <= k < l < |idx| ==> idx[k] < idx[l])
  }

  /** The positions in `all` of the anchors `Matching` keeps. */
  ghost function MatchedAt<H(!new)>(all: seq<Anchor<H>>, keyword: string): (idx: seq<int>)
    ensures |idx| == |Matching(all, keyword)|
    ensures Ascending(idx, |all|)
    ensures forall k :: 0 <= k < |idx| ==> Matching(all, keyword)[k] == all[idx[k]]
    ensures forall i :: 0 <= i < |all| && Contains(all[i].name, keyword) ==> i in idx
  {
    if |all| == 0 then []
    else
      var prefix := all[..|all| - 1];
      var rest := MatchedAt(prefix, keyword);
      assert Matching(all, keyword) ==
        if Contains(all[|all| - 1].name, keyword) then Matching(prefix, keyword) + [all[|all| - 1]]
        else Matching(prefix, keyword);
      assert forall k :: 0 <= k < |rest| ==> all[rest[k]] == prefix[rest[k]];
      if Contains(all[|all| - 1].name, keyword) then rest + [|all| - 1] else rest
  }

  /** With the empty keyword nothing is filtered out. */
  lemma {:induction false} MatchingEmptyKeyword<H(!new)>(all: seq<Anchor<H>>)
    ensures Matching(all, "") == all
  {
    if |all| > 0 {
      MatchingEmptyKeyword(all[..|all| - 1]);
      ContainsEmpty(all[|all| - 1].name);
      assert all == all[..|all| - 1] + [all[|all| - 1]];
    }
  }

  /** Filtering distributes over concatenation. */
  lemma {:induction false} MatchingAppend<H(!new)>(xs: seq<Anchor<H>>, ys: seq<Anchor<H>>, keyword: string)
    ensures Matching(xs + ys, keyword) == Matching(xs, keyword) + Matching(ys, keyword)
    decreases |ys|
  {
    if |ys| == 0 {
      assert xs + ys == xs;
    } else {
      var ys' := ys[..|ys| - 1];
      var last := ys[|ys| - 1];
      MatchingAppend(xs, ys', keyword);
      assert (xs + ys)[..|xs + ys| - 1] == xs + ys';
      assert (xs + ys)[|xs + ys| - 1] == last;
      var m := if Contains(last.name, keyword) then [last] else [];
      assert Matching(xs + ys, keyword) == Matching(xs + ys', keyword) + m;
      assert Matching(ys, keyword) == Matching(ys', keyword) + m;
    }
  }

  /** `FindAnchorsByType`: the anchors whose name contains the keyword of `t`, in input order. */
  method FindAnchorsByType<H(!new)>(all: seq<Anchor<H>>, t: PlacementType) returns (r: seq<Anchor<H>>)
    ensures r == Matching(all, Keyword(t))
    ensures forall a :: a in r <==> a in all && Contains(a.name, Keyword(t))
    ensures t.Undeclared? ==> r == all
  {
    var keyword := Keyword(t);
    r := [];
    var i := 0;
    while i < |all|
      invariant 0 <= i <= |all|
      invariant r == Matching(all[..i], keyword)
    {
      assert all[..i + 1][..i] == all[..i];
      if Contains(all[i].name, keyword) {
        r := r + [all[i]];
      }
      i := i + 1;
    }
    assert all[..|all|] == all;
    MatchingMembers(all, keyword);
    if t.Undeclared? {
      MatchingEmptyKeyword(all);
    }
  }

  /**
   * The reference run of `PopulateRoom`: after the spawns `done`, `n` more
   * iterations starting at draw number `draw`, each drawing a spawnable
   * and, when some anchor's name has its keyword, drawing one of those
   * anchors and spawning it there. Returns all spawns and the number of the
   * next draw.
   */
  function Populated<P, H(!new)>(all: seq<Anchor<H>>, spawnables: seq<Spawnable<P>>, n: nat,
                                 pick: (nat, nat) -> nat, draw: nat, done: seq<Spawn<P, H>>)
    : (r: (seq<Spawn<P, H>>, nat))
    requires ValidOracle(pick) && (n > 0 ==> |spawnables| > 0)
    ensures |done| <= |r.0| <= |done| + n && r.1 == draw + n + (|r.0| - |done|)
    decreases n
  {
    if n == 0 then (done, draw)
    else
      var obj := spawnables[pick(draw, |spawnables|)];
      var anchors := Matching(all, Keyword(obj.placement));
      if |anchors| > 0 then
        Populated(all, spawnables, n - 1, pick, draw + 2, done + [Spawn(obj, anchors[pick(draw + 1, |anchors|)])])
      else
        Populated(all, spawnables, n - 1, pick, draw + 1, done)
  }

  /** A spawn made by `PopulateRoom`: a listed object on one of the room's anchors named for it. */
  ghost predicate Suits<P, H>(all: seq<Anchor<H>>, spawnables: seq<Spawnable<P>>, s: Spawn<P, H>) {
    s.obj in spawnables && s.anchor in all && Contains(s.anchor.name, Keyword(s.obj.placement))
  }

  /** Every spawn the reference run adds suits the room. */
  lemma {:induction false} PopulatedSound<P, H(!new)>(all: seq<Anchor<H>>, spawnables: seq<Spawnable<P>>, n: nat,
                                                      pick: (nat, nat) -> nat, draw: nat, done: seq<Spawn<P, H>>)
    requires ValidOracle(pick) && (n > 0 ==> |spawnables| > 0)
    requires forall s :: s in done ==> Suits(all, spawnables, s)
    ensures forall s :: s in Populated(all, spawnables, n, pick, draw, done).0 ==> Suits(all, spawnables, s)
    decreases n
  {
    if n > 0 {
      var obj := spawnables[pick(draw, |spawnables|)];
      var anchors := Matching(all, Keyword(obj.placement));
      if |anchors| > 0 {
        var s := Spawn(obj, anchors[pick(draw + 1, |anchors|)]);
        MatchingMembers(all, Keyword(obj.placement));
        assert Suits(all, spawnables, s);
        PopulatedSound(all, spawnables, n - 1, pick, draw + 2, done + [s]);
      } else {
        PopulatedSound(all, spawnables, n - 1, pick, draw + 1, done);
      }
    }
  }

  /** When every spawnable has an anchor named for it, every iteration spawns. */
  lemma {:induction false} PopulatedFull<P, H(!new)>(all: seq<Anchor<H>>, spawnables: seq<Spawnable<P>>, n: nat,
                                                     pick: (nat, nat) -> nat, draw: nat, done: seq<Spawn<P, H>>)
    requires ValidOracle(pick) && (n > 0 ==> |spawnables| > 0)
    ensures (forall o :: o in spawnables ==> |Matching(all, Keyword(o.placement))| > 0) ==>
      |Populated(all, spawnables, n, pick, draw, done).0| == |done| + n
    decreases n
  {
    if n > 0 && forall o :: o in spawnables ==> |Matching(all, Keyword(o.placement))| > 0 {
      var obj := spawnables[pick(draw, |spawnables|)];
      var anchors := Matching(all, Keyword(obj.placement));
      assert |anchors| > 0;
      PopulatedFull(all, spawnables, n - 1, pick, draw + 2, done + [Spawn(obj, anchors[pick(draw + 1, |anchors|)])]);
    }
  }

  /** When no spawnable has an anchor named for it, no iteration spawns. */
  lemma {:induction false} PopulatedNone<P, H(!new)>(all: seq<Anchor<H>>, spawnables: seq<Spawnable<P>>, n: nat,
                                                     pick: (nat, nat) -> nat, draw: nat, done: seq<Spawn<P, H>>)
    requires ValidOracle(pick) && (n > 0 ==> |spawnables| > 0)
    ensures (forall o :: o in spawnables ==> |Matching(all, Keyword(o.placement))| == 0) ==>
      Populated(all, spawnables, n, pick, draw, done).0 == done
    decreases n
  {
    if n > 0 && forall o :: o in spawnables ==> |Matching(all, Keyword(o.placement))| == 0 {
      var obj := spawnables[pick(draw, |spawnables|)];
      assert |Matching(all, Keyword(obj.placement))| == 0;
      PopulatedNone(all, spawnables, n - 1, pick, draw + 1, done);
    }
  }

  /**
   * `PopulateRoom`: `maxObjects` iterations, each drawing a spawnable and,
   * when some anchor suits it, drawing one of those anchors and spawning
   * the object there. `draw` numbers the next random draw; `draws` is the
   * number after the last. With no spawnables and at least one iteration
   * the first draw indexes an empty array, which `fault` reports.
   */
  method PopulateRoom<P, H(!new)>(all: seq<Anchor<H>>, spawnables: seq<Spawnable<P>>, maxObjects: int,
                            pick: (nat, nat) -> nat, draw: nat)
    returns (spawns: seq<Spawn<P, H>>, draws: nat, fault: bool)
    requires ValidOracle(pick)
    ensures fault <==> maxObjects > 0 && |spawnables| == 0
    ensures fault ==> spawns == [] && draws == draw
    ensures !fault ==>
      (spawns, draws) == Populated(all, spawnables, if maxObjects > 0 then maxObjects else 0, pick, draw, [])
    ensures !fault ==> |spawns| <= (if maxObjects > 0 then maxObjects else 0)
    ensures !fault ==> draws == draw + (if maxObjects > 0 then maxObjects else 0) + |spawns|
    ensures !fault && (forall o :: o in spawnables ==> |Matching(all, Keyword(o.placement))| > 0) ==>
      |spawns| == (if maxObjects > 0 then maxObjects else 0)
    ensures (forall o :: o in spawnables ==> |Matching(all, Keyword(o.placement))| == 0) ==> spawns == []
    ensures forall s :: s in spawns ==>
      s.obj in spawnables && s.anchor in all && Contains(s.anchor.name, Keyword(s.obj.placement))
  {
    spawns := [];
    draws := draw;
    fault := false;
    var n: nat := if maxObjects > 0 then maxObjects else 0;
    if n > 0 && |spawnables| == 0 {
      // The first iteration's draw indexes the empty array before any spawn.
      return [], draw, true;
    }
    ghost var goal := Populated(all, spawnables, n, pick, draw, []);
    var left: nat := n;
    while left > 0
      invariant left <= n
      invariant Populated(all, spawnables, left, pick, draws, spawns) == goal
    {
      var got, next := PopulateStep(all, spawnables, left, pick, draws, spawns);
      spawns, draws, left := spawns + got, next, left - 1;
    }
    PopulatedSound(all, spawnables, n, pick, draw, []);
    PopulatedFull(all, spawnables, n, pick, draw, []);
    PopulatedNone(all, spawnables, n, pick, draw, []);
  }

  /**
   * One iteration of `PopulateRoom` with `k` iterations still to run: it
   * draws a spawnable and, when an anchor suits it, an anchor, and leaves
   * the reference run unchanged once its spawn is moved onto `done`.
   */
  method PopulateStep<P, H(!new)>(all: seq<Anchor<H>>, spawnables: seq<Spawnable<P>>, k: nat,
                                  pick: (nat, nat) -> nat, draw: nat, ghost done: seq<Spawn<P, H>>)
    returns (got: seq<Spawn<P, H>>, draws: nat)
    requires ValidOracle(pick) && |spawnables| > 0 && k > 0
    ensures |got| <= 1
    ensures Populated(all, spawnables, k, pick, draw, done) == Populated(all, spawnables, k - 1, pick, draws, done + got)
  {
    var obj := spawnables[pick(draw, |spawnables|)];
    draws := draw + 1;
    var anchors := FindAnchorsByType(all, obj.placement);
    if |anchors| > 0 {
      var anchor := anchors[pick(draws, |anchors|)];
      draws := draws + 1;
      got := [Spawn(obj, anchor)];
    } else {
      got := [];
      assert done + got == done;
    }
  }
}

=== FILE: room.dfy ===
/**
 * A generated room (`RoomBehavior`): one wall and one door object per side,
 * indexed like the generator's door bits (0 up, 1 down, 2 right, 3 left),
 * plus three lists of anchor points. `UpdateRoom` turns a door-bit vector
 * into active doors and walls; `PopulateRoomAnchored` decorates the room
 * from its typed anchor lists.
 */
module Room {
  import opened Wrappers
  import opened Choice
  import opened Scene
  import Populator

  /** Which wall and door objects are active, and the room's anchor points by kind. */
  datatype RoomState<H> = RoomState(
    walls: seq<bool>,
    doors: seq<bool>,
    wallAnchors: seq<Anchor<H>>,
    centerAnchors: seq<Anchor<H>>,
    cornerAnchors: seq<Anchor<H>>)

  /**
   * `room'` is `room` after showing `status`: on each side below
   * `|status|` the door is active exactly when the bit is set and the wall
   * exactly when it is not; every other object and all anchors are as before.
   */
  ghost predicate Shows<H>(room: RoomState<H>, status: seq<bool>, room': RoomState<H>) {
    && |room'.doors| == |room.doors| && |room'.walls| == |room.walls|
    && |status| <= |room.doors| && |status| <= |room.walls|
    && (forall i :: 0 <= i < |status| ==> room'.doors[i] == status[i] && room'.walls[i] == !status[i])
    && (forall i :: |status| <= i < |room.doors| ==> room'.doors[i] == room.doors[i])
    && (forall i :: |status| <= i < |room.walls| ==> room'.walls[i] == room.walls[i])
    && room'.wallAnchors == room.wallAnchors
    && room'.centerAnchors == room.centerAnchors
    && room'.cornerAnchors == room.cornerAnchors
  }

  /**
   * `UpdateRoom`: for each side `i` below `|status|`, activates door `i`
   * iff `status[i]` and wall `i` iff not. A status longer than either
   * object array indexes past its end, reported as `None`.
   */
  method UpdateRoom<H>(room: RoomState<H>, status: seq<bool>) returns (r: Option<RoomState<H>>)
    ensures r.Some? <==> |status| <= |room.doors| && |status| <= |room.walls|
    ensures r.Some? ==> Shows(room, status, r.value)
    ensures r.Some? ==> forall i :: 0 <= i < |status| ==> r.value.doors[i] != r.value.walls[i]
  {
    var doors := room.doors;
    var walls := room.walls;
    var i := 0;
    while i < |status|
      invariant 0 <= i <= |status|
      invariant i <= |doors| && i <= |walls|
      invariant |doors| == |room.doors| && |walls| == |room.walls|
      invariant forall k :: 0 <= k < i ==> doors[k] == status[k] && walls[k] == !status[k]
      invariant forall k :: i <= k < |doors| ==> doors[k] == room.doors[k]
      invariant forall k :: i <= k < |walls| ==> walls[k] == room.walls[k]
    {
      if i >= |doors| {
        return None;
      }
      doors := doors[i := status[i]];
      if i >= |walls| {
        return None;
      }
      walls := walls[i := !status[i]];
      i := i + 1;
    }
    r := Some(room.(doors := doors, walls := walls));
  }

  /** Showing a vector twice is showing it once. */
  lemma ShowsIdempotent<H>(room: RoomState<H>, status: seq<bool>, room': RoomState<H>, room'': RoomState<H>)
    requires Shows(room, status, room') && Shows(room', status, room'')
    ensures room'' == room'
  {
  }

  /** `GetAnchorsByType`: the room's anchor list for a placement kind; an undeclared kind has none. */
  function GetAnchorsByType<H>(room: RoomState<H>, t: PlacementType): (r: seq<Anchor<H>>)
    ensures t.Undeclared? ==> r == []
    ensures forall a :: a in r ==> a in room.wallAnchors || a in room.centerAnchors || a in room.cornerAnchors
  {
    match t
    case Wall => room.wallAnchors
    case Corner => room.cornerAnchors
    case Center => room.centerAnchors
    case Undeclared(_) => []
  }

  /**
   * The spawnables that have at least one anchor in `room`, in order: a
   * spawnable is kept exactly when its anchor list is non-empty, and
   * `EligibleAppend` shows the filter keeps the input order.
   */
  function Eligible<H, P>(room: RoomState<H>, spawnables: seq<Spawnable<P>>): (r: seq<Spawnable<P>>)
    ensures |r| <= |spawnables|
    ensures forall k :: 0 <= k < |r| ==> r[k] in spawnables && |GetAnchorsByType(room, r[k].placement)| > 0
    ensures forall s :: s in spawnables && |GetAnchorsByType(room, s.placement)| > 0 ==> s in r
  {
    if |spawnables| == 0 then []
    else
      var rest := Eligible(room, spawnables[..|spawnables| - 1]);
      var last := spawnables[|spawnables| - 1];
      assert spawnables == spawnables[..|spawnables| - 1] + [last];
      if |GetAnchorsByType(room, last.placement)| > 0 then rest + [last] else rest
  }

  /** Filtering for eligibility distributes over concatenation, so it keeps the input order. */
  lemma {:induction false} EligibleAppend<H, P>(room: RoomState<H>, xs: seq<Spawnable<P>>, ys: seq<Spawnable<P>>)
    ensures Eligible(room, xs + ys) == Eligible(room, xs) + Eligible(room, ys)
    decreases |ys|
  {
    if |ys| == 0 {
      assert xs + ys == xs;
    } else {
      var ys' := ys[..|ys| - 1];
      var last := ys[|ys| - 1];
      var e := if |GetAnchorsByType(room, last.placement)| > 0 then [last] else [];
      assert Eligible(room, xs + ys) == Eligible(room, xs + ys') + e by {
        assert (xs + ys)[..|xs + ys| - 1] == xs + ys';
        assert (xs + ys)[|xs + ys| - 1] == last;
      }
      assert Eligible(room, ys) == Eligible(room, ys') + e;
      EligibleAppend(room, xs, ys');
    }
  }

  /**
   * `PopulateRoomAnchored`: each spawnable whose anchor list is non-empty
   * is spawned once, on an anchor drawn from that list; the others are
   * skipped. `draw` numbers the next random draw.
   */
  method PopulateRoomAnchored<H, P>(room: RoomState<H>, spawnables: seq<Spawnable<P>>,
                                    pick: (nat, nat) -> nat, draw: nat)
    returns (spawns: seq<Spawn<P, H>>, draws: nat)
    requires ValidOracle(pick)
    ensures |spawns| == |Eligible(room, spawnables)| <= |spawnables|
    ensures forall k :: 0 <= k < |spawns| ==>
      spawns[k].obj == Eligible(room, spawnables)[k] &&
      spawns[k].anchor in GetAnchorsByType(room, spawns[k].obj.placement)
    ensures draws == draw + |spawns|
  {
    spawns := [];
    draws := draw;
    var i := 0;
    ghost var kept: seq<Spawnable<P>> := [];
    while i < |spawnables|
      invariant 0 <= i <= |spawnables|
      invariant kept == Eligible(room, spawnables[..i])
      invariant |spawns| == |kept| && draws == draw + |spawns|
      invariant forall k :: 0 <= k < |spawns| ==>
        spawns[k].obj == kept[k] && spawns[k].anchor in GetAnchorsByType(room, spawns[k].obj.placement)
    {
      var obj := spawnables[i];
      var anchors := GetAnchorsByType(room, obj.placement);
      assert Eligible(room, spawnables[..i + 1]) == kept + (if |anchors| > 0 then [obj] else []) by {
        assert spawnables[..i + 1][..i] == spawnables[..i];
      }
      if |anchors| > 0 {
        var anchor := anchors[pick(draws, |anchors|)];
        draws := draws + 1;
        spawns := spawns + [Spawn(obj, anchor)];
        kept := kept + [obj];
      }
      i := i + 1;
    }
    assert spawnables[..|spawnables|] == spawnables;
  }

  /**
   * The two decorators agree on declared kinds when the room follows the
   * naming convention. `children` is every transform under the room in
   * hierarchy order: the room itself, its walls and doors, its anchors.
   * If the children whose names carry a declared keyword are exactly the
   * wall, centre and corner anchors in that order, and each anchor's name
   * contains its own kind's keyword and no other kind's, the name filter
   * over `children` finds exactly the typed list.
   */
  lemma NamedAgreesWithTyped<H(!new)>(room: RoomState<H>, children: seq<Anchor<H>>, t: PlacementType)
    requires !t.Undeclared?
    requires Tagged(children) == Children(room)
    requires forall a :: a in room.wallAnchors ==> Conventional(a, Wall)
    requires forall a :: a in room.centerAnchors ==> Conventional(a, Center)
    requires forall a :: a in room.cornerAnchors ==> Conventional(a, Corner)
    ensures Populator.Matching(children, Populator.Keyword(t)) == GetAnchorsByType(room, t)
  {
    var kw := Populator.Keyword(t);
    var walls, centers, corners := room.wallAnchors, room.centerAnchors, room.cornerAnchors;
    assert Populator.Matching(children, kw) == Populator.Matching(Children(room), kw) by {
      MatchingTagged(children, t);
    }
    assert Populator.Matching(Children(room), kw) ==
      Populator.Matching(walls, kw) + (Populator.Matching(centers, kw) + Populator.Matching(corners, kw)) by {
      assert Children(room) == walls + (centers + corners);
      Populator.MatchingAppend(walls, centers + corners, kw);
      Populator.MatchingAppend(centers, corners, kw);
    }
    assert Populator.Matching(walls, kw) == if t == Wall then walls else [] by {
      AllOrNone(walls, Wall, t);
    }
    assert Populator.Matching(centers, kw) == if t == Center then centers else [] by {
      AllOrNone(centers, Center, t);
    }
    assert Populator.Matching(corners, kw) == if t == Corner then corners else [] by {
      AllOrNone(corners, Corner, t);
    }
  }

  /**
   * With an undeclared kind the decorators disagree: the typed lookup
   * offers no anchor, while the empty keyword matches every child.
   */
  lemma UndeclaredDiverges<H(!new)>(room: RoomState<H>, children: seq<Anchor<H>>, code: int)
    ensures GetAnchorsByType(room, Undeclared(code)) == []
    ensures Populator.Matching(children, Populator.Keyword(Undeclared(code))) == children
  {
    Populator.MatchingEmptyKeyword(children);
  }

  /** The room's anchors as one child list: wall, then centre, then corner. */
  function Children<H>(room: RoomState<H>): seq<Anchor<H>> {
    room.wallAnchors + room.centerAnchors + room.cornerAnchors
  }

  /** A child whose name carries some declared kind's keyword. */
  predicate Named<H>(a: Anchor<H>) {
    || Populator.Contains(a.name, Populator.Keyword(Wall))
    || Populator.Contains(a.name, Populator.Keyword(Center))
    || Populator.Contains(a.name, Populator.Keyword(Corner))
  }

  /** The children that carry a declared keyword, in their original order. */
  function Tagged<H>(xs: seq<Anchor<H>>): (r: seq<Anchor<H>>)
    ensures |r| <= |xs|
    ensures forall k :: 0 <= k < |r| ==> r[k] in xs && Named(r[k])
  {
    if |xs| == 0 then []
    else
      var rest := Tagged(xs[..|xs| - 1]);
      var last := xs[|xs| - 1];
      if Named(last) then rest + [last] else rest
  }

  /** A declared keyword never matches an untagged child, so dropping those changes no keyword filter. */
  lemma {:induction false} MatchingTagged<H(!new)>(xs: seq<Anchor<H>>, t: PlacementType)
    requires !t.Undeclared?
    ensures Populator.Matching(xs, Populator.Keyword(t)) == Populator.Matching(Tagged(xs), Populator.Keyword(t))
  {
    if |xs| > 0 {
      var kw := Populator.Keyword(t);
      var prefix := xs[..|xs| - 1];
      var last := xs[|xs| - 1];
      MatchingTagged(prefix, t);
      assert xs == prefix + [last];
      if Named(last) {
        assert Tagged(xs) == Tagged(prefix) + [last];
        Populator.MatchingAppend(Tagged(prefix), [last], kw);
        assert [last][..0] == [];
      } else {
        assert !Populator.Contains(last.name, kw);
      }
    }
  }

  /** An anchor named for kind `t`: its name contains `t`'s keyword and no other declared kind's. */
  predicate Conventional<H>(a: Anchor<H>, t: PlacementType) {
    forall u :: u in [Wall, Center, Corner] ==> (Populator.Contains(a.name, Populator.Keyword(u)) <==> u == t)
  }

  lemma {:induction false} AllOrNone<H(!new)>(xs: seq<Anchor<H>>, kind: PlacementType, t: PlacementType)
    requires !t.Undeclared? && !kind.Undeclared?
    requires forall a :: a in xs ==> Conventional(a, kind)
    ensures Populator.Matching(xs, Populator.Keyword(t)) == if kind == t then xs else []
  {
    if |xs| > 0 {
      var prefix := xs[..|xs| - 1];
      var last := xs[|xs| - 1];
      assert xs == prefix + [last];
      assert Conventional(last, kind);
      assert t in [Wall, Center, Corner];
      AllOrNone(prefix, kind, t);
    }
  }
}

=== FILE: scene.dfy ===
/**
 * The plain data the room decorators share: the placement kinds of
 * `SpawnableObject.cs`, a spawnable object, a named anchor point in a room,
 * and one spawn. Prefabs and anchor transforms are opaque type parameters.
 */
module Scene {

  /**
   * Where an object may be placed. A C# enum variable can hold a value
   * outside its declared names; `Undeclared` stands for such a value,
   * which the source's `switch` expressions send to their `_` arm.
   */
  datatype PlacementType = Wall | Corner | Center | Undeclared(code: int)

  /** A spawnable object: a prefab and the kind of anchor it goes on. */
  datatype Spawnable<P> = Spawnable(prefab: P, placement: PlacementType)

  /** An anchor point: the name of its game object and the transform it stands for. */
  datatype Anchor<H> = Anchor(name: string, handle: H)

  /** One instantiation: the object spawned and the anchor it was put on. */
  datatype Spawn<P, H> = Spawn(obj: Spawnable<P>, anchor: Anchor<H>)
}

=== FILE: wrappers.dfy ===
/** Optional values, standing in for the source's nullable references. */
module Wrappers {

  datatype Option<+T> = None | Some(value: T)
}
